=== FILE: README.md ===
# Bengaluru tech events tracker — a Dafny model of the client-side pipeline

The tracker is a single-page application that lists technology events. The
user searches and filters them, sorts them, sees them split into upcoming and
past, and changes each event's registration status. The collection is
persisted in the browser's key-value storage. On first use it is seeded from
a JSON file served next to the page.

This project models, in Dafny, the logic between those inputs and the two
lists the user sees:

- the **filter engine**: free-text search, status filter and category filter,
  combined with AND;
- the **sort engine**: soonest first, latest first, by name, and by category
  then name; unknown options leave the order alone;
- the **categoriser**: the split into `upcoming` (date on or after today) and
  `past`, plus the three-way `compareDates`;
- the **persistence store**: save, load and clear under one fixed key, with a
  load that discards a corrupted entry;
- the **data loader**: validation of the seed file, and the choice between the
  persisted collection and the seed at start-up;
- the **top level**: the initial view settings, the filter → sort → split
  pipeline, the status change and its persistence, start-up and the "reload
  fresh data" action.

Each operation is a pure function over immutable values. Everything the
browser supplies is a parameter:

- today's date and the current timestamp;
- the outcome of each storage call (`Storage.Io`);
- the network response (`Loader.Response`);
- the user's answer to the confirmation dialog.

Modules, one per source file plus shared helpers:

| file | module | models |
|---|---|---|
| `wrappers.dfy` | `Wrappers` | `Option` and `Result` |
| `strings.dfy` | `Strings` | JavaScript string `<`, `toLowerCase`, `trim`, `includes`, `localeCompare` |
| `seqs.dfy` | `Seqs` | `Array.prototype.filter` and order-preserving selections |
| `event.dfy` | `Model` | the event record |
| `filter_utils.dfy` | `Filters` | `filterUtils.js` |
| `sort_utils.dfy` | `Sorting` | `sortUtils.js` |
| `event_utils.dfy` | `EventDates` | `eventUtils.js` |
| `local_storage.dfy` | `Storage` | `localStorage.js` |
| `data_loader.dfy` | `Loader` | `dataLoader.js` |
| `app.dfy` | `App` | the logic of `App.jsx` |

Three definitions carry most of the specification:

- **Selections.** `Seqs.IsSelection(r, s, p)` says `r` is an
  order-preserving subsequence of `s`. It holds every occurrence of each
  element `p` accepts and nothing else. `Seqs.SelectionUnique` shows such an
  `r` is unique. So every filter is pinned down by its predicate alone.
- **Sorting.** `Sorting.SortBy` is a stable insertion sort. JavaScript's
  `Array.prototype.sort` is stable. `Sorting.StableSortIsUnique` shows that
  any stable sort by the same comparator returns the same sequence.
- **Date order.** `EventDates.IsoOrderIsChronological` shows that for
  fixed-width `YYYY-MM-DD` strings, string order is calendar order. That is
  why the tracker may compare dates as strings.

Choices the code makes that a reader might not expect, and that the model
follows:

- **Status values.** The status dropdown (`EventCard.jsx:49-52`) offers four
  values, but `handleStatusChange` and the filters check nothing, so status
  and the filter values are strings.
- **Empty filter values.** The code treats an empty status or category
  filter like `All`.
- **Empty stored text.** An empty stored text loads as absent without
  clearing the key, as a missing key does.
- **Failed reads.** A read that throws attempts to clear the key. The key
  is removed when removal works and otherwise left as is.
- **Reset.** The reset removes the key directly. When the removal throws, the
  page does not reload.
- **Name and category order.** `localeCompare` uses the host's collation.
  The model uses ordinal order; see "Left out".

## Model

| member | source | states |
|---|---|---|
| Strings.Lower | frontend/src/utils/filterUtils.js:12 | lower-cases character by character and keeps the length |
| Strings.Less | frontend/src/utils/sortUtils.js:8-9 | JavaScript `<` on strings: the lexicographic order, a proper prefix sorting first |
| Strings.Trim | frontend/src/utils/filterUtils.js:8 | the result is the contiguous piece of the input starting at its first non-space character, with only white space before and after it; neither end of it is white space; it is empty exactly when the input is all white space |
| Strings.TrimLowerCommute | frontend/src/utils/filterUtils.js:12 | trimming then lower-casing equals lower-casing then trimming |
| Strings.Contains | frontend/src/utils/filterUtils.js:15-16 | `includes` is true exactly when the query occurs at some position of the string |
| Strings.Compare | frontend/src/utils/sortUtils.js:34 | the three-way comparison used for `localeCompare`: -1, 0 or 1; negative exactly when the first string sorts first, zero exactly when the strings are equal |
| Filters.IsBlank | frontend/src/utils/filterUtils.js:8 | the search text trims to the empty string |
| Filters.Query | frontend/src/utils/filterUtils.js:12 | the query is the lower-cased search text with surrounding white space removed |
| Filters.MatchesQuery | frontend/src/utils/filterUtils.js:15-17 | an event matches when its lower-cased name or its lower-cased category contains the query |
| Filters.IsAll | frontend/src/utils/filterUtils.js:28 | the empty string and `All` mean "no filter", for status here and for category at line 42 |
| Filters.StatusAccepts | frontend/src/utils/filterUtils.js:28-32 | an event passes the status filter when the filter is `All` or empty, or its status equals the filter exactly |
| Filters.CategoryAccepts | frontend/src/utils/filterUtils.js:42-46 | an event passes the category filter when the filter is `All` or empty, or its category equals the filter exactly |
| Filters.FilterBySearch | frontend/src/utils/filterUtils.js:7-19 | a blank search returns the input itself; otherwise the result is the order-preserving selection of the events whose lower-cased name or category contains the lower-cased trimmed query |
| Filters.FilterByStatus | frontend/src/utils/filterUtils.js:27-33 | `All` or empty returns the input itself; otherwise the order-preserving selection of the events with exactly that status |
| Filters.FilterByCategory | frontend/src/utils/filterUtils.js:41-47 | `All` or empty returns the input itself; otherwise the order-preserving selection of the events with exactly that category |
| Filters.ApplyAllFilters | frontend/src/utils/filterUtils.js:55-70 | the result is an order-preserving subsequence of the input with every occurrence of an event all three active predicates accept, and only those |
| Filters.ApplyAllFiltersIsConjunction | frontend/src/utils/filterUtils.js:55-70 | the three chained filters equal a single filter by the conjunction of the three predicates |
| Filters.FilterOrderUnobservable | frontend/src/utils/filterUtils.js:61-67 | running the filters as category, status, search gives the same sequence as search, status, category |
| Filters.NoFiltersIsIdentity | frontend/src/App.jsx:18-20 | the initial criteria `('', 'All', 'All')` return the input unchanged |
| Filters.EmptyStaysEmpty | frontend/src/utils/filterUtils.js:55-70 | no criteria produce events from an empty collection |
| Filters.ActiveQueryIsNonEmpty | frontend/src/utils/filterUtils.js:8-12 | a search text that passes the blank check yields a non-empty query, so an active search never matches everything through the empty string |
| Filters.SearchMatchesCategoryIgnoringCase | frontend/src/utils/filterUtils.js:14-18 | the query `cloud` keeps an event whose category is `Cloud Computing` |
| Sorting.ParsePolicy | frontend/src/utils/sortUtils.js:61-72 | the four option strings `soonest`, `latest`, `name` and `category` name a policy; any other string names none |
| Sorting.Comparator | frontend/src/utils/sortUtils.js:7-51 | the comparator of each policy: dates ascending, dates descending, names, and category then name |
| Sorting.SortBy | frontend/src/utils/sortUtils.js:7-11 | the copy-then-sort returns a permutation of the input in the policy's order |
| Sorting.SortBySoonestDate | frontend/src/utils/sortUtils.js:6-12 | a permutation with dates non-decreasing; events with the same date keep their input order |
| Sorting.SortByLatestDate | frontend/src/utils/sortUtils.js:19-25 | a permutation with dates non-increasing; events with the same date keep their input order |
| Sorting.SortByNameAZ | frontend/src/utils/sortUtils.js:32-36 | a permutation with names non-decreasing; events with the same name keep their input order |
| Sorting.SortByCategory | frontend/src/utils/sortUtils.js:43-52 | a permutation grouped by ascending category, ascending name within a category; full ties keep their input order |
| Sorting.ApplySorting | frontend/src/utils/sortUtils.js:60-73 | an unrecognised option returns the input itself; a recognised one returns a permutation sorted by its policy |
| Sorting.ApplySortingDispatch | frontend/src/utils/sortUtils.js:60-73 | the four option strings select the four policy functions |
| Sorting.InOrderMeaning | frontend/src/utils/sortUtils.js:43-52 | a comparator result of zero or less means the two events are in the intended order on the fields the policy reads |
| Sorting.ComparatorProperties | frontend/src/utils/sortUtils.js:6-52 | every comparator returns -1, 0 or 1, is antisymmetric, and returns 0 exactly on events that agree on the compared fields |
| Sorting.InOrderTransitive | frontend/src/utils/sortUtils.js:43-52 | every comparator is transitive, so each policy is a total preorder that `sort` may use |
| Sorting.SortedByKeys | frontend/src/utils/sortUtils.js:6-52 | each sorted result is in the intended order on the compared fields for every pair of positions |
| Sorting.SortKeepsTies | frontend/src/utils/sortUtils.js:7-11 | the sort is stable: for every event, the events tied with it under the policy appear in the result in their input order |
| Sorting.StableSortIsUnique | frontend/src/utils/sortUtils.js:7-11 | any permutation that is sorted and keeps tied events in input order is exactly the model's sort |
| Sorting.SortedIsFixpoint | frontend/src/utils/sortUtils.js:7-11 | sorting a sequence already in order leaves it unchanged |
| Sorting.ApplySortingIdempotent | frontend/src/utils/sortUtils.js:60-73 | applying the same option twice equals applying it once |
| Sorting.SortByCategoryExample | frontend/src/utils/sortUtils.js:43-52 | `B/Y`, `A/Z`, `A/A` sorted by category then name give `A/A`, `A/Z`, `B/Y` |
| Sorting.SortedSubsequence | frontend/src/App.jsx:91-94 | every subsequence of a sorted sequence is sorted, so the date split keeps each bucket in the chosen order |
| Sorting.SortCommutesWithFilter | frontend/src/App.jsx:84-94 | a selection from a stable sort equals the stable sort of the selection |
| EventDates.IsUpcoming | frontend/src/utils/eventUtils.js:16 | an event is upcoming when today's date is not greater than its date |
| EventDates.IsPast | frontend/src/utils/eventUtils.js:17 | an event is past when its date is less than today's date |
| EventDates.CategorizeEventsByDate | frontend/src/utils/eventUtils.js:13-20 | `upcoming` is the order-preserving selection of events dated on or after today and `past` that of the earlier ones; together they partition the input, they are disjoint, and an event dated today is upcoming |
| EventDates.CompareDates | frontend/src/utils/eventUtils.js:28-32 | returns -1, 0 or 1; zero exactly when the dates are equal; negative exactly when the first sorts before the second |
| EventDates.CompareDatesAntisymmetric | frontend/src/utils/eventUtils.js:28-32 | swapping the arguments negates the result |
| EventDates.CompareDatesIsChronological | frontend/src/utils/eventUtils.js:28-32 | on `YYYY-MM-DD` dates the comparison is the calendar comparison by year, month and day |
| EventDates.IsoOrderIsChronological | frontend/src/utils/eventUtils.js:16-17 | for `YYYY-MM-DD` strings, string order equals calendar order, and string equality equals same year, month and day |
| EventDates.PastMeansEarlierDay | frontend/src/utils/eventUtils.js:16-17 | for `YYYY-MM-DD` dates an event is past exactly when its day precedes today, and upcoming otherwise |
| EventDates.CategorizePair | frontend/src/utils/eventUtils.js:13-20 | an event dated before today followed by one dated on or after it splits into one past and one upcoming event |
| EventDates.CategorizeExample | frontend/src/utils/eventUtils.js:13-20 | with today 2025-06-01, an event of 2025-01-01 is past and one of 2099-01-01 upcoming |
| Storage.Envelope | frontend/src/utils/localStorage.js:10-13 | the persisted object holds the events and the `lastUpdated` stamp |
| Storage.IsCorrupt | frontend/src/utils/localStorage.js:36-49 | a stored text is discarded when it is not empty and does not parse to an object whose `events` is an array |
| Storage.IsWellFormed | frontend/src/utils/localStorage.js:39 | a stored text is well formed when it parses to an object whose `events` is an array |
| Storage.SaveToLocalStorage | frontend/src/utils/localStorage.js:8-23 | returns true exactly when the write succeeds, in which case the fixed key holds the envelope of the given events; a failed write returns false and leaves the store as it was; no other key changes |
| Storage.LoadFromLocalStorage | frontend/src/utils/localStorage.js:29-51 | returns events exactly when the read succeeds and the key holds a well-formed envelope, then those events with the store untouched; a missing or empty value leaves the store untouched; a failed read or a corrupted value attempts to clear the key (removed when removal works, otherwise left as is); no other key changes |
| Storage.ClearLocalStorage | frontend/src/utils/localStorage.js:56-62 | a successful removal deletes the fixed key and nothing else; a failed one leaves the store as it was |
| Storage.SaveThenLoad | frontend/src/utils/localStorage.js:8-51 | after a successful save, a load returns exactly the saved events and changes nothing |
| Storage.FailedSaveThenLoad | frontend/src/utils/localStorage.js:16-22 | a failed save returns false and the next load sees what it would have seen before |
| Storage.LoadHealsCorruption | frontend/src/utils/localStorage.js:36-50 | a corrupted value loads as absent and, when removal works, the key is gone afterwards |
| Storage.LoadIdempotent | frontend/src/utils/localStorage.js:29-51 | a second load returns what the first returned and changes nothing more |
| Storage.ClearIdempotent | frontend/src/utils/localStorage.js:56-62 | clearing twice is clearing once |
| Storage.ClearThenLoad | frontend/src/utils/localStorage.js:29-62 | after a successful clear, a load returns absent and changes nothing |
| Loader.IsComplete | frontend/src/utils/dataLoader.js:24-31 | a seed element passes when all nine required properties are present |
| Loader.FirstMissing | frontend/src/utils/dataLoader.js:25-31 | absent exactly when the element has every field; otherwise a field it lacks, every field before it being present |
| Loader.RequiredFieldsAreComplete | frontend/src/utils/dataLoader.js:24 | having every field in the required list is having the nine named fields |
| Loader.FirstMissingAt | frontend/src/utils/dataLoader.js:25-31 | the first absent field in list order is the one reported |
| Loader.ToEvent | frontend/src/utils/dataLoader.js:24-33 | a complete seed element becomes the event with those nine field values |
| Loader.ValidateSeed | frontend/src/utils/dataLoader.js:23-31 | succeeds exactly when every element is complete, then with the elements converted one for one; otherwise fails with a missing-field error |
| Loader.ValidateSeedReportsFirstMissing | frontend/src/utils/dataLoader.js:25-31 | the error names the first missing field of the first incomplete element; no partial result is returned |
| Loader.FetchTestData | frontend/src/utils/dataLoader.js:7-38 | a network failure fails with a fetch error and a non-ok status with an HTTP error carrying that status; under an ok status a body that is not JSON fails as invalid JSON, a JSON value that is not an array fails as invalid format, and an array gives the seed validation's result; the load succeeds exactly when the body is a JSON array whose every element is complete, and then converts the elements one for one |
| Loader.HasStoredEvents | frontend/src/utils/dataLoader.js:49 | the load returned an array and it is not empty |
| Loader.LoadInitialData | frontend/src/utils/dataLoader.js:44-66 | non-empty stored events are returned with the store as the load left it; otherwise the result is the seed fetch's, and a fetched seed is saved whenever the write works, even after a failed read; a failed write leaves the store as the load left it; on success with working storage the next load yields the returned events; no other key changes |
| Loader.StorageWins | frontend/src/utils/dataLoader.js:47-52 | with a readable non-empty stored collection the result does not depend on the network, and the store is untouched |
| Loader.EmptyStoreFallsThrough | frontend/src/utils/dataLoader.js:49-56 | a stored empty array does not count: the seed is fetched |
| Loader.SaveFailureIsHarmless | frontend/src/utils/dataLoader.js:58-61 | with no key stored, a seed that cannot be saved is still returned, and the store is unchanged |
| Loader.ResetLoadsSeed | frontend/src/App.jsx:70-74 | start-up after a successful clear returns whatever the seed fetch returns |
| Loader.MissingRegistrationLinkFails | frontend/src/utils/dataLoader.js:24-31 | a seed whose element lacks only `registrationLink` fails with that field named |
| App.InitialViewShowsEverything | frontend/src/App.jsx:18-21 | with the initial settings the two lists together hold every event, each list in ascending date order |
| App.InitialPipeline | frontend/src/App.jsx:18-21 | with the initial settings the pipeline is the soonest-first sort followed by the date split; no event is filtered out |
| App.GetProcessedEvents | frontend/src/App.jsx:82-95 | each list holds every occurrence of an accepted event of its kind and nothing else; under a recognised option both lists are in its order, under any other both keep the input order |
| App.ProcessedEventsReference | frontend/src/App.jsx:82-95 | each list equals the stable sort of the selection of visible events of its kind, so the order of the three steps cannot be observed |
| App.ChangeStatus | frontend/src/App.jsx:48-50 | same length; every event with the id gets the new status and keeps its other fields; every other event is unchanged |
| App.LastStatusWins | frontend/src/App.jsx:48-50 | two changes to one id equal the last one alone |
| App.UnknownIdChangesNothing | frontend/src/App.jsx:48-50 | a change for an id no event has leaves the collection as it was |
| App.ChangedEventsPassStatusFilter | frontend/src/App.jsx:48-50 | after a change every event with that id passes the status filter for the new status |
| App.HandleStatusChange | frontend/src/App.jsx:47-53 | the new collection is the status change applied to the old one: ids and order are kept and only statuses of matching events change; a working write persists the updated collection, a failed one leaves the store as it was but keeps the in-memory change |
| App.StatusChangeSurvivesReload | frontend/src/App.jsx:51-52 | with working storage and a non-empty collection, the next start-up returns the updated collection whatever the network answers |
| App.LoadData | frontend/src/App.jsx:28-44 | the start-up effect shows the loaded events exactly when loading succeeds, and otherwise no events and the fixed error message |
| App.ReloadFreshData | frontend/src/App.jsx:68-79 | the page restarts exactly when the user confirms and the key can be removed, from a store without the key; it then shows the fetched seed when the fetch succeeds, and otherwise no events and the fixed error message |
| App.ReloadShowsSeed | frontend/src/App.jsx:68-79 | a confirmed reload shows the seed as fetched, or the error when the fetch fails |

## Left out

- `getTodayDate` reads the wall clock. Today's date is a parameter of
  `EventDates.CategorizeEventsByDate`. The date lemmas assume fixed-width
  `YYYY-MM-DD` strings.
- The `lastUpdated` timestamp (`new Date().toISOString()`) is a parameter
  `now`.
- `JSON.stringify` and `JSON.parse` are not modelled. A stored text is
  already classified:
  - empty;
  - unparseable;
  - `null`;
  - an object whose `events` is missing, not an array, or an array of events.
- The browser storage API is not modelled. The storage is a map from keys to
  texts, and whether each `getItem`, `setItem` and `removeItem` call succeeds
  is an input (`Storage.Io`).
- Quota errors are not singled out; they are a failed write. Logging is
  dropped.
- `fetch` and `response.json()` are not modelled. Their outcome is an input
  (`Loader.Response`).
- `import.meta.env.BASE_URL` and the file name are not modelled.
- Async and promise sequencing are not modelled. Each async function becomes
  a function of its inputs.
- The loading flag and the loading screen are React state. Only the state
  after loading finishes is modelled (`App.Screen`).
- React rendering, the event card, the modal, the filter controls and their
  event handlers are not modelled. They hold no logic beyond passing values
  through.
- `window.confirm` is not modelled. The user's answer is a parameter of
  `App.ReloadFreshData`.
- `window.location.reload` is modelled as starting again with
  `App.LoadData`.
- Strings.Lower: `toLowerCase` lowers only ASCII letters. Full Unicode case
  mapping is locale-table data outside the model. Non-ASCII letters are left
  as they are, so for text outside ASCII the search's matches differ from
  the source's.
- Strings.Compare: `localeCompare` is modelled as ordinal comparison. Its
  collation depends on the host's locale data.
- Strings.Less: JavaScript compares UTF-16 code units, and Dafny characters
  are Unicode scalar values. The two orders agree on the Basic Multilingual
  Plane but not above it.
- Loader.ToEvent: seed elements are maps from present field names to string
  values. Two consequences:
  - the source returns the parsed elements as they are, with any extra
    properties; the model keeps only the nine fields;
  - non-string values, and elements that are not objects (where `in` would
    throw), are not represented.
- Loader.LoadInitialData: `Storage.EventsField` holds events. The source's
  stored array could hold anything; the model does not represent arrays of
  non-events.
- Filters.Criteria: an undefined or `null` criterion is represented by the
  empty string. The source's `!value` test treats them alike.
- The `Event` field `type` is named `kind`, because `type` is a keyword.

=== FILE: app.dfy ===
/** The tracker's top level: the view settings it starts with, the
    filter-sort-split pipeline that produces the two lists it shows, status
    changes and their persistence, start-up, and the "reload fresh data"
    action. Today's date, the clock, the network response and the outcome of
    each storage call are parameters. */
module App {
  import opened Model
  import opened Wrappers
  import Seqs
  import Filters
  import Sorting
  import EventDates
  import Storage
  import Loader

  /** The view settings: the three filter criteria and the sort option. */
  datatype Settings = Settings(criteria: Filters.Criteria, sortOption: string)

  /** No search, every status, every category, soonest first. */
  const InitialSettings := Settings(Filters.NoFilters, "soonest")

  /** Shown, and upcoming (or past), under the given criteria. */
  function VisibleTest(criteria: Filters.Criteria, today: string, upcoming: bool): Event -> bool
  {
    Seqs.And(Filters.AcceptsTest(criteria),
             if upcoming then EventDates.UpcomingTest(today) else EventDates.PastTest(today))
  }

  /** `getProcessedEvents`: filter, then sort, then split by date. Each
      bucket holds every occurrence of an accepted event of its kind and
      nothing else; under a recognised option both buckets are in that
      option's order, and under any other option they keep the input order. */
  function GetProcessedEvents(events: seq<Event>, settings: Settings, today: string): (b: EventDates.Buckets)
    ensures forall e :: multiset(b.upcoming)[e]
                     == if Filters.Accepts(settings.criteria, e) && EventDates.IsUpcoming(e, today)
                        then multiset(events)[e] else 0
    ensures forall e :: multiset(b.past)[e]
                     == if Filters.Accepts(settings.criteria, e) && EventDates.IsPast(e, today)
                        then multiset(events)[e] else 0
    ensures Sorting.ParsePolicy(settings.sortOption).Some? ==>
              var p := Sorting.ParsePolicy(settings.sortOption).value;
              Sorting.Sorted(p, b.upcoming) && Sorting.Sorted(p, b.past)
    ensures Sorting.ParsePolicy(settings.sortOption).None? ==>
              Seqs.Subsequence(b.upcoming, events) && Seqs.Subsequence(b.past, events)
  {
    var filtered := Filters.ApplyAllFilters(events, settings.criteria);
    var sorted := Sorting.ApplySorting(filtered, settings.sortOption);
    PipelineCounts(events, settings.criteria, sorted, today);
    PipelineOrder(events, filtered, settings.sortOption, today);
    EventDates.CategorizeEventsByDate(sorted, today)
  }

  /** Splitting a reordering of the accepted events counts every accepted
      occurrence in the bucket of its kind. */
  lemma PipelineCounts(events: seq<Event>, criteria: Filters.Criteria, sorted: seq<Event>, today: string)
    requires multiset(sorted) == multiset(Filters.ApplyAllFilters(events, criteria))
    ensures var b := EventDates.CategorizeEventsByDate(sorted, today);
            forall e :: multiset(b.upcoming)[e]
                     == if Filters.Accepts(criteria, e) && EventDates.IsUpcoming(e, today)
                        then multiset(events)[e] else 0
    ensures var b := EventDates.CategorizeEventsByDate(sorted, today);
            forall e :: multiset(b.past)[e]
                     == if Filters.Accepts(criteria, e) && EventDates.IsPast(e, today)
                        then multiset(events)[e] else 0
  {
    var filtered := Filters.ApplyAllFilters(events, criteria);
    var b := EventDates.CategorizeEventsByDate(sorted, today);
    forall e: Event
      ensures multiset(b.upcoming)[e]
           == if Filters.Accepts(criteria, e) && EventDates.IsUpcoming(e, today)
              then multiset(events)[e] else 0
      ensures multiset(b.past)[e]
           == if Filters.Accepts(criteria, e) && EventDates.IsPast(e, today)
              then multiset(events)[e] else 0
    {
      assert multiset(filtered)[e] == if Filters.Accepts(criteria, e) then multiset(events)[e] else 0;
      assert multiset(sorted)[e] == multiset(filtered)[e];
      assert multiset(b.upcoming)[e] == if EventDates.IsUpcoming(e, today) then multiset(sorted)[e] else 0;
      assert multiset(b.past)[e] == if EventDates.IsPast(e, today) then multiset(sorted)[e] else 0;
    }
  }

  /** Splitting keeps the order of the sorted list: sorted buckets under a
      recognised option, the input order otherwise. */
  lemma PipelineOrder(events: seq<Event>, filtered: seq<Event>, sortOption: string, today: string)
    requires Seqs.Subsequence(filtered, events)
    ensures var b := EventDates.CategorizeEventsByDate(Sorting.ApplySorting(filtered, sortOption), today);
            Sorting.ParsePolicy(sortOption).Some? ==>
              var p := Sorting.ParsePolicy(sortOption).value;
              Sorting.Sorted(p, b.upcoming) && Sorting.Sorted(p, b.past)
    ensures var b := EventDates.CategorizeEventsByDate(Sorting.ApplySorting(filtered, sortOption), today);
            Sorting.ParsePolicy(sortOption).None? ==>
              Seqs.Subsequence(b.upcoming, events) && Seqs.Subsequence(b.past, events)
  {
    var sorted := Sorting.ApplySorting(filtered, sortOption);
    var b := EventDates.CategorizeEventsByDate(sorted, today);
    match Sorting.ParsePolicy(sortOption)
    case Some(p) =>
      Sorting.SortedSubsequence(p, b.upcoming, sorted);
      Sorting.SortedSubsequence(p, b.past, sorted);
    case None =>
      Seqs.SubsequenceTransitive(b.upcoming, sorted, events);
      Seqs.SubsequenceTransitive(b.past, sorted, events);
  }

  /** The reference definition of the two lists: each is the selection of
      the visible events of its kind, stably sorted when the option names a
      policy. The pipeline's order of steps is therefore not observable. */
  lemma ProcessedEventsReference(events: seq<Event>, settings: Settings, today: string)
    ensures var b := GetProcessedEvents(events, settings, today);
            match Sorting.ParsePolicy(settings.sortOption)
            case Some(p) =>
              && b.upcoming == Sorting.SortBy(p, Seqs.Filter(events, VisibleTest(settings.criteria, today, true)))
              && b.past == Sorting.SortBy(p, Seqs.Filter(events, VisibleTest(settings.criteria, today, false)))
            case None =>
              && b.upcoming == Seqs.Filter(events, VisibleTest(settings.criteria, today, true))
              && b.past == Seqs.Filter(events, VisibleTest(settings.criteria, today, false))
  {
    var criteria := settings.criteria;
    var filtered := Filters.ApplyAllFilters(events, criteria);
    var sorted := Sorting.ApplySorting(filtered, settings.sortOption);
    var b := EventDates.CategorizeEventsByDate(sorted, today);
    var up, past := EventDates.UpcomingTest(today), EventDates.PastTest(today);
    Filters.ApplyAllFiltersIsConjunction(events, criteria);
    Seqs.SelectionUnique(b.upcoming, sorted, up);
    Seqs.SelectionUnique(b.past, sorted, past);
    Seqs.FilterFilter(events, Filters.AcceptsTest(criteria), up, VisibleTest(criteria, today, true));
    Seqs.FilterFilter(events, Filters.AcceptsTest(criteria), past, VisibleTest(criteria, today, false));
    match Sorting.ParsePolicy(settings.sortOption)
    case Some(p) =>
      Sorting.SortCommutesWithFilter(p, filtered, up);
      Sorting.SortCommutesWithFilter(p, filtered, past);
    case None =>
  }

  /** With the initial settings every event is shown, split by date, each
      list soonest first. */
  lemma InitialViewShowsEverything(events: seq<Event>, today: string)
    ensures var b := GetProcessedEvents(events, InitialSettings, today);
            && multiset(b.upcoming) + multiset(b.past) == multiset(events)
            && b.upcoming == Seqs.Filter(Sorting.SortBy(Sorting.Soonest, events), EventDates.UpcomingTest(today))
            && b.past == Seqs.Filter(Sorting.SortBy(Sorting.Soonest, events), EventDates.PastTest(today))
            && Sorting.Sorted(Sorting.Soonest, b.upcoming) && Sorting.Sorted(Sorting.Soonest, b.past)
  {
    InitialPipeline(events, today);
    var sorted := Sorting.SortBy(Sorting.Soonest, events);
    var b := EventDates.CategorizeEventsByDate(sorted, today);
    Seqs.SelectionUnique(b.upcoming, sorted, EventDates.UpcomingTest(today));
    Seqs.SelectionUnique(b.past, sorted, EventDates.PastTest(today));
    Seqs.FilterIsSelection(sorted, EventDates.UpcomingTest(today));
    Seqs.FilterIsSelection(sorted, EventDates.PastTest(today));
    Sorting.SortedSubsequence(Sorting.Soonest, b.upcoming, sorted);
    Sorting.SortedSubsequence(Sorting.Soonest, b.past, sorted);
  }

  /** The pipeline is the composition of its three steps. */
  lemma PipelineSteps(events: seq<Event>, settings: Settings, today: string)
    ensures GetProcessedEvents(events, settings, today)
         == EventDates.CategorizeEventsByDate(
              Sorting.ApplySorting(Filters.ApplyAllFilters(events, settings.criteria), settings.sortOption), today)
  {
  }

  /** The initial settings reduce the pipeline to a date sort and the
      split. */
  lemma InitialPipeline(events: seq<Event>, today: string)
    ensures GetProcessedEvents(events, InitialSettings, today)
         == EventDates.CategorizeEventsByDate(Sorting.SortBy(Sorting.Soonest, events), today)
  {
    PipelineSteps(events, InitialSettings, today);
    InitialSorting(events);
  }

  /** The initial criteria keep every event and the initial option sorts
      soonest first. */
  lemma InitialSorting(events: seq<Event>)
    ensures Sorting.ApplySorting(Filters.ApplyAllFilters(events, InitialSettings.criteria), InitialSettings.sortOption)
         == Sorting.SortBy(Sorting.Soonest, events)
  {
    Filters.NoFiltersIsIdentity(events);
    Sorting.SoonestSorting(events);
  }

  // ---------------------------------------------------------------------
  // Status changes
  // ---------------------------------------------------------------------

  /** The `events.map` of `handleStatusChange`: every event with the given
      id gets the new status, and nothing else changes. */
  function ChangeStatus(events: seq<Event>, eventId: string, newStatus: string): (r: seq<Event>)
    ensures |r| == |events|
    ensures forall i :: 0 <= i < |events| && events[i].id == eventId ==>
              r[i] == events[i].(status := newStatus)
    ensures forall i :: 0 <= i < |events| && events[i].id != eventId ==> r[i] == events[i]
  {
    seq(|events|, i requires 0 <= i < |events| =>
      if events[i].id == eventId then events[i].(status := newStatus) else events[i])
  }

  /** The last status change to an event is the one that counts. */
  lemma LastStatusWins(events: seq<Event>, eventId: string, first: string, second: string)
    ensures ChangeStatus(ChangeStatus(events, eventId, first), eventId, second)
         == ChangeStatus(events, eventId, second)
  {
  }

  /** A change for an id no event has leaves the collection as it was. */
  lemma UnknownIdChangesNothing(events: seq<Event>, eventId: string, newStatus: string)
    requires forall i :: 0 <= i < |events| ==> events[i].id != eventId
    ensures ChangeStatus(events, eventId, newStatus) == events
  {
  }

  /** After the change, every event with that id passes a status filter
      for the new status. */
  lemma ChangedEventsPassStatusFilter(events: seq<Event>, eventId: string, newStatus: string)
    ensures var r := ChangeStatus(events, eventId, newStatus);
            forall i :: 0 <= i < |r| && r[i].id == eventId ==>
              r[i] in Filters.FilterByStatus(r, newStatus)
  {
    var r := ChangeStatus(events, eventId, newStatus);
    Seqs.SelectionMembers(Filters.FilterByStatus(r, newStatus), r, Filters.StatusTest(newStatus));
  }

  /** The tracker's state: the events in memory and the store. */
  datatype Session = Session(events: seq<Event>, store: Storage.Store)

  /** `handleStatusChange`: the in-memory collection is updated and the
      updated collection saved, stamped `now`. A failed save is swallowed:
      the in-memory change stands and the store is as it was. */
  function HandleStatusChange(s: Session, eventId: string, newStatus: string, now: string, io: Storage.Io): (r: Session)
    ensures r.events == ChangeStatus(s.events, eventId, newStatus)
    ensures |r.events| == |s.events|
    ensures forall i :: 0 <= i < |s.events| ==> r.events[i].id == s.events[i].id
    ensures forall i :: 0 <= i < |s.events| ==>
              r.events[i].status == (if s.events[i].id == eventId then newStatus else s.events[i].status)
    ensures io.writeOk ==> Storage.StorageKey in r.store
                           && r.store[Storage.StorageKey] == Storage.Envelope(r.events, now)
    ensures !io.writeOk ==> r.store == s.store
    ensures Storage.OthersUnchanged(s.store, r.store)
  {
    var updated := ChangeStatus(s.events, eventId, newStatus);
    Session(updated, Storage.SaveToLocalStorage(s.store, updated, now, io).store)
  }

  /** A status change survives a reload: with working storage and a
      non-empty collection, the next start-up returns the updated collection
      whatever the network would answer. An empty collection does not count
      as stored, so start-up would fetch the seed instead. */
  lemma StatusChangeSurvivesReload(s: Session, eventId: string, newStatus: string, now: string,
                                   io: Storage.Io, response: Loader.Response, later: string)
    requires io.readOk && io.writeOk && |s.events| > 0
    ensures var r := HandleStatusChange(s, eventId, newStatus, now, io);
            Loader.LoadInitialData(r.store, io, response, later) == Loader.Startup(r.store, Ok(r.events))
  {
    var r := HandleStatusChange(s, eventId, newStatus, now, io);
    Storage.SaveThenLoad(s.store, r.events, now, io);
  }

  // ---------------------------------------------------------------------
  // Start-up and reset
  // ---------------------------------------------------------------------

  /** The message shown when start-up fails. */
  const LoadFailedMessage := "Failed to load events. Please try again later."

  /** The tracker once loading has finished: its events, the error message
      if loading failed, and the store. */
  datatype Screen = Screen(events: seq<Event>, error: Option<string>, store: Storage.Store)

  /** The start-up effect: the loaded events on success; on failure no
      events and the fixed message. */
  function LoadData(store: Storage.Store, io: Storage.Io, response: Loader.Response, now: string): (r: Screen)
    ensures var loaded := Loader.LoadInitialData(store, io, response, now);
            (r.error.None? <==> loaded.result.Ok?) && r.store == loaded.store
    ensures r.error.None? ==> r.events == Loader.LoadInitialData(store, io, response, now).result.value
    ensures r.error.Some? ==> r.events == [] && r.error.value == LoadFailedMessage
  {
    var loaded := Loader.LoadInitialData(store, io, response, now);
    match loaded.result
    case Ok(events) => Screen(events, None, loaded.store)
    case Err(_) => Screen([], Some(LoadFailedMessage), loaded.store)
  }

  /** `handleReloadData`: when the user confirms and the key can be removed,
      the store is cleared and the page starts again; otherwise nothing
      happens (`None`). What the restarted page shows is the seed as
      fetched, or the fixed error message: the persisted collection, edits
      included, is gone. */
  function ReloadFreshData(confirmed: bool, store: Storage.Store, io: Storage.Io,
                           response: Loader.Response, now: string): (r: Option<Screen>)
    ensures r.Some? <==> confirmed && io.removeOk
    ensures r.Some? ==> r.value == LoadData(store - {Storage.StorageKey}, io, response, now)
    ensures r.Some? ==> (r.value.error.None? <==> Loader.FetchTestData(response).Ok?)
    ensures r.Some? && r.value.error.None? ==> r.value.events == Loader.FetchTestData(response).value
    ensures r.Some? && r.value.error.Some? ==> r.value.events == [] && r.value.error.value == LoadFailedMessage
    ensures r.Some? ==> Storage.StorageKey !in r.value.store || r.value.error.None?
  {
    if confirmed && io.removeOk then
      Loader.ResetLoadsSeed(store, io, response, now);
      assert Storage.ClearLocalStorage(store, io) == store - {Storage.StorageKey};
      Some(LoadData(store - {Storage.StorageKey}, io, response, now))
    else
      None
  }

  /** A confirmed reload discards the persisted collection, edits
      included, and shows the seed as fetched. */
  lemma ReloadShowsSeed(store: Storage.Store, io: Storage.Io, response: Loader.Response, now: string)
    requires io.removeOk
    ensures var r := ReloadFreshData(true, store, io, response, now);
            r.Some? && (r.value.error.None? <==> Loader.FetchTestData(response).Ok?)
            && (r.value.error.None? ==> r.value.events == Loader.FetchTestData(response).value)
  {
    Loader.ResetLoadsSeed(store, io, response, now);
    assert Storage.ClearLocalStorage(store, io) == store - {Storage.StorageKey};
  }
}

=== FILE: data_loader.dfy ===
/** The data loader: fetching and validating the seed file, and choosing at
    start-up between the persisted collection and the seed. The network
    response is a parameter. */
module Loader {
  import opened Model
  import opened Wrappers
  import Storage

  /** The properties every seed element must have, in the order they are
      checked. */
  const RequiredFields: seq<string> :=
    ["id", "name", "date", "category", "type", "location", "description", "registrationLink", "status"]

  /** One element of the seed array: its properties and their values. */
  type RawEvent = map<string, string>

  /** What `response.json()` makes of the body: a failure, a value that is
      not an array, or an array of elements. */
  datatype Payload = NotJson | NotArray | Array(items: seq<RawEvent>)

  /** The outcome of `fetch`: a network failure, or a response with its
      `ok` flag, its status code and its body. */
  datatype Response = NetworkFailure | Response(ok: bool, status: int, payload: Payload)

  /** Why loading failed; each case is one of the errors the loader throws. */
  datatype LoadError =
    | FetchFailed
    | HttpError(status: int)
    | InvalidJson
    | InvalidFormat
    | MissingField(field: string)

  /** `raw` has every property in `fields`. */
  predicate HasFields(raw: RawEvent, fields: seq<string>)
  {
    forall i :: 0 <= i < |fields| ==> fields[i] in raw
  }

  /** `raw` has all nine required properties. */
  predicate IsComplete(raw: RawEvent)
  {
    && "id" in raw && "name" in raw && "date" in raw && "category" in raw
    && "type" in raw && "location" in raw && "description" in raw
    && "registrationLink" in raw && "status" in raw
  }

  /** Having every field of `RequiredFields` is being complete. */
  lemma RequiredFieldsAreComplete(raw: RawEvent)
    ensures HasFields(raw, RequiredFields) <==> IsComplete(raw)
  {
    var fields := RequiredFields;
    assert fields[0] == "id" && fields[1] == "name" && fields[2] == "date";
    assert fields[3] == "category" && fields[4] == "type" && fields[5] == "location";
    assert fields[6] == "description" && fields[7] == "registrationLink" && fields[8] == "status";
  }

  /** The first of `fields` that `raw` lacks, if any. */
  function FirstMissing(raw: RawEvent, fields: seq<string>): (r: Option<string>)
    ensures r.None? <==> HasFields(raw, fields)
    ensures r.Some? ==> exists i :: 0 <= i < |fields| && fields[i] == r.value && r.value !in raw
                                    && forall j :: 0 <= j < i ==> fields[j] in raw
  {
    if |fields| == 0 then None
    else if fields[0] !in raw then Some(fields[0])
    else
      var r := FirstMissing(raw, fields[1..]);
      assert HasFields(raw, fields) <==> HasFields(raw, fields[1..]) by {
        assert forall i :: 0 < i < |fields| ==> fields[i] == fields[1..][i - 1];
      }
      if r.Some? then
        assert exists i :: 0 <= i < |fields| && fields[i] == r.value && r.value !in raw
                           && forall j :: 0 <= j < i ==> fields[j] in raw by {
          var k :| 0 <= k < |fields[1..]| && fields[1..][k] == r.value && r.value !in raw
                   && forall j :: 0 <= j < k ==> fields[1..][j] in raw;
          assert fields[k + 1] == r.value;
          assert forall j :: 0 < j < k + 1 ==> fields[j] == fields[1..][j - 1];
        }
        r
      else
        r
  }

  /** The event a complete seed element describes; its `type` property is
      the event's `kind`. */
  function ToEvent(raw: RawEvent): (e: Event)
    requires IsComplete(raw)
    ensures e.id == raw["id"] && e.name == raw["name"] && e.date == raw["date"]
    ensures e.category == raw["category"] && e.kind == raw["type"]
    ensures e.location == raw["location"] && e.description == raw["description"]
    ensures e.registrationLink == raw["registrationLink"] && e.status == raw["status"]
  {
    Event(raw["id"], raw["name"], raw["date"], raw["category"], raw["type"],
          raw["location"], raw["description"], raw["registrationLink"], raw["status"])
  }

  /** The validation loop of `fetchTestData`: elements are checked in order
      and, within each, fields in order; the first missing field of the
      first incomplete element fails the whole array. A complete array is
      returned element for element. */
  function ValidateSeed(items: seq<RawEvent>): (r: Result<seq<Event>, LoadError>)
    ensures r.Ok? <==> forall i :: 0 <= i < |items| ==> IsComplete(items[i])
    ensures r.Ok? ==> |r.value| == |items|
                      && forall i :: 0 <= i < |items| ==> r.value[i] == ToEvent(items[i])
    ensures r.Err? ==> r.error.MissingField?
  {
    if |items| == 0 then Ok([])
    else
      RequiredFieldsAreComplete(items[0]);
      assert forall i :: 0 < i < |items| ==> items[i] == items[1..][i - 1];
      match FirstMissing(items[0], RequiredFields)
      case Some(field) => Err(MissingField(field))
      case None =>
        var rest := ValidateSeed(items[1..]);
        if rest.Ok? then Ok([ToEvent(items[0])] + rest.value) else rest
  }

  /** The error `ValidateSeed` reports names the first missing field of the
      first incomplete element. */
  lemma {:induction false} ValidateSeedReportsFirstMissing(items: seq<RawEvent>, k: nat)
    requires k < |items| && !IsComplete(items[k])
    requires forall j :: 0 <= j < k ==> IsComplete(items[j])
    ensures FirstMissing(items[k], RequiredFields).Some?
            && ValidateSeed(items) == Err(MissingField(FirstMissing(items[k], RequiredFields).value))
    decreases k
  {
    RequiredFieldsAreComplete(items[0]);
    if k > 0 {
      ValidateSeedReportsFirstMissing(items[1..], k - 1);
    } else {
      RequiredFieldsAreComplete(items[k]);
    }
  }

  /** `fetchTestData`: a failed request, a non-ok status, a body that is not
      JSON or not an array, and a seed element lacking a required field
      each fail; otherwise the validated array is the result. */
  function FetchTestData(response: Response): (r: Result<seq<Event>, LoadError>)
    ensures response.NetworkFailure? ==> r == Err(FetchFailed)
    ensures response.Response? && !response.ok ==> r == Err(HttpError(response.status))
    ensures r.Ok? <==> response.Response? && response.ok && response.payload.Array?
                       && forall i :: 0 <= i < |response.payload.items| ==> IsComplete(response.payload.items[i])
    ensures response.Response? && response.ok && response.payload.NotJson? ==> r == Err(InvalidJson)
    ensures response.Response? && response.ok && response.payload.NotArray? ==> r == Err(InvalidFormat)
    ensures (response.Response? && response.ok && response.payload.Array?)
              ==> r == ValidateSeed(response.payload.items)
    ensures r.Ok? ==> |r.value| == |response.payload.items|
                      && forall i :: 0 <= i < |r.value| ==> r.value[i] == ToEvent(response.payload.items[i])
  {
    match response
    case NetworkFailure => Err(FetchFailed)
    case Response(ok, status, payload) =>
      if !ok then Err(HttpError(status))
      else
        match payload
        case NotJson => Err(InvalidJson)
        case NotArray => Err(InvalidFormat)
        case Array(items) => ValidateSeed(items)
  }

  /** The result of start-up loading: the store afterwards and the events,
      or the error the loader throws. */
  datatype Startup = Startup(store: Storage.Store, result: Result<seq<Event>, LoadError>)

  /** Persisted events that make the loader skip the seed: present and
      non-empty. */
  predicate HasStoredEvents(loaded: Storage.Loaded)
  {
    loaded.events.Some? && |loaded.events.value| > 0
  }

  /** `loadInitialData`: a non-empty persisted collection wins; otherwise the
      seed is fetched, saved best-effort (whether or not the read worked),
      and returned. A failed save leaves the store as the load left it. */
  function LoadInitialData(store: Storage.Store, io: Storage.Io, response: Response, now: string): (r: Startup)
    ensures var loaded := Storage.LoadFromLocalStorage(store, io);
            HasStoredEvents(loaded) ==> r == Startup(loaded.store, Ok(loaded.events.value))
    ensures var loaded := Storage.LoadFromLocalStorage(store, io);
            !HasStoredEvents(loaded) ==> r.result == FetchTestData(response)
    ensures r.result.Err? ==> r.store == Storage.LoadFromLocalStorage(store, io).store
    ensures (io.readOk && io.writeOk && r.result.Ok?)
              ==> Storage.LoadFromLocalStorage(r.store, io).events == Some(r.result.value)
    ensures var loaded := Storage.LoadFromLocalStorage(store, io);
            (!HasStoredEvents(loaded) && r.result.Ok? && io.writeOk)
              ==> Storage.StorageKey in r.store
                  && r.store[Storage.StorageKey] == Storage.Envelope(r.result.value, now)
    ensures !io.writeOk ==> r.store == Storage.LoadFromLocalStorage(store, io).store
    ensures Storage.OthersUnchanged(store, r.store)
  {
    var loaded := Storage.LoadFromLocalStorage(store, io);
    if HasStoredEvents(loaded) then
      Startup(loaded.store, Ok(loaded.events.value))
    else
      match FetchTestData(response)
      case Err(e) => Startup(loaded.store, Err(e))
      case Ok(seed) =>
        var saved := Storage.SaveToLocalStorage(loaded.store, seed, now, io);
        Startup(saved.store, Ok(seed))
  }

  // ---------------------------------------------------------------------
  // Properties
  // ---------------------------------------------------------------------

  /** When a non-empty collection is persisted and readable, start-up
      returns it whatever the network would have answered, and touches
      nothing. */
  lemma StorageWins(store: Storage.Store, io: Storage.Io, response1: Response, response2: Response, now1: string, now2: string)
    requires io.readOk && Storage.StorageKey in store && Storage.IsWellFormed(store[Storage.StorageKey])
    requires |store[Storage.StorageKey].doc.events.items| > 0
    ensures LoadInitialData(store, io, response1, now1) == LoadInitialData(store, io, response2, now2)
    ensures LoadInitialData(store, io, response1, now1) == Startup(store, Ok(store[Storage.StorageKey].doc.events.items))
  {
  }

  /** A persisted empty array does not count as data: the seed is fetched. */
  lemma EmptyStoreFallsThrough(store: Storage.Store, io: Storage.Io, response: Response, now: string, lastUpdated: string)
    requires io.readOk && Storage.StorageKey in store
    requires store[Storage.StorageKey] == Storage.Envelope([], lastUpdated)
    ensures LoadInitialData(store, io, response, now).result == FetchTestData(response)
  {
  }

  /** A seed that cannot be persisted is still returned: a failed save
      never fails start-up. */
  lemma SaveFailureIsHarmless(store: Storage.Store, io: Storage.Io, response: Response, now: string)
    requires !io.writeOk && Storage.StorageKey !in store
    ensures LoadInitialData(store, io, response, now).result == FetchTestData(response)
    ensures LoadInitialData(store, io, response, now).store == store
  {
  }

  /** Start-up after a successful clear of the store is start-up from the
      seed: this is what the tracker's "reload fresh data" action does. */
  lemma ResetLoadsSeed(store: Storage.Store, io: Storage.Io, response: Response, now: string)
    requires io.removeOk
    ensures LoadInitialData(Storage.ClearLocalStorage(store, io), io, response, now).result
         == FetchTestData(response)
  {
  }

  /** A seed whose only element lacks `registrationLink` fails the seed
      fetch with that field named. */
  lemma MissingRegistrationLinkFails(raw: RawEvent)
    requires forall f :: f in RequiredFields && f != "registrationLink" ==> f in raw
    requires "registrationLink" !in raw
    ensures FetchTestData(Response(true, 200, Array([raw]))) == Err(MissingField("registrationLink"))
  {
    RequiredFieldsAreComplete(raw);
    var fields := RequiredFields;
    assert fields[7] == "registrationLink";
    assert forall j :: 0 <= j < 7 ==> fields[j] in raw by {
      assert forall j :: 0 <= j < 7 ==> fields[j] in RequiredFields && fields[j] != "registrationLink";
    }
    FirstMissingAt(raw, fields, 7);
    ValidateSeedReportsFirstMissing([raw], 0);
  }

  /** When the fields before position `k` are present and the one at `k` is
      not, that one is the first missing field. */
  lemma {:induction false} FirstMissingAt(raw: RawEvent, fields: seq<string>, k: nat)
    requires k < |fields| && fields[k] !in raw
    requires forall j :: 0 <= j < k ==> fields[j] in raw
    ensures FirstMissing(raw, fields) == Some(fields[k])
    decreases k
  {
    if k > 0 {
      FirstMissingAt(raw, fields[1..], k - 1);
    }
  }
}

=== FILE: event.dfy ===
/** The tracker's one entity. */
module Model {

  /** An event record. Every attribute is modelled as a string (see
      `Loader.ToEvent` under "Left out" in the README); `kind` holds the
      record's `type` attribute (`type` is a reserved word here). `date` is an ISO `YYYY-MM-DD`
      string and `status` the user's registration status (`None`,
      `Registered`, `Waiting` or `Confirmed` in practice, though nothing in
      the pipeline enforces that). */
  datatype Event = Event(
    id: string,
    name: string,
    date: string,
    category: string,
    kind: string,
    location: string,
    description: string,
    registrationLink: string,
    status: string
  )
}

=== FILE: event_utils.dfy ===
/** Date handling: the split of a collection into upcoming and past events,
    and the fact that makes string comparison of dates sound, namely that
    for fixed-width `YYYY-MM-DD` strings the string order is the calendar
    order. Today's date is a parameter; `compareDates` is `Strings.Compare`. */
module EventDates {
  import opened Model
  import Strings
  import Seqs

  /** The two buckets `categorizeEventsByDate` returns. */
  datatype Buckets = Buckets(upcoming: seq<Event>, past: seq<Event>)

  /** `event.date >= today`, compared as strings. */
  predicate IsUpcoming(e: Event, today: string)
  {
    Strings.LessEq(today, e.date)
  }

  /** `event.date < today`, compared as strings. */
  predicate IsPast(e: Event, today: string)
  {
    Strings.Less(e.date, today)
  }

  function UpcomingTest(today: string): Event -> bool
  {
    e => IsUpcoming(e, today)
  }

  function PastTest(today: string): Event -> bool
  {
    e => IsPast(e, today)
  }

  /** `categorizeEventsByDate`: `upcoming` keeps, in input order, exactly
      the events dated today or later and `past` exactly the earlier ones;
      together they partition the input, and an event dated today is
      upcoming. */
  function CategorizeEventsByDate(events: seq<Event>, today: string): (b: Buckets)
    ensures Seqs.IsSelection(b.upcoming, events, UpcomingTest(today))
    ensures Seqs.IsSelection(b.past, events, PastTest(today))
    ensures multiset(b.upcoming) + multiset(b.past) == multiset(events)
    ensures |b.upcoming| + |b.past| == |events|
    ensures forall e :: e in b.upcoming ==> e !in b.past
    ensures forall e :: e in events && e.date == today ==> e in b.upcoming
  {
    var isUpcoming := (e: Event) => Strings.LessEq(today, e.date);
    var isPast := (e: Event) => Strings.Less(e.date, today);
    var upcoming := Seqs.Filter(events, isUpcoming);
    var past := Seqs.Filter(events, isPast);
    Seqs.FilterIsSelection(events, isUpcoming);
    Seqs.FilterIsSelection(events, isPast);
    Seqs.SelectionCongruence(upcoming, events, isUpcoming, UpcomingTest(today));
    Seqs.SelectionCongruence(past, events, isPast, PastTest(today));
    Seqs.SelectionMembers(upcoming, events, UpcomingTest(today));
    Seqs.SelectionMembers(past, events, PastTest(today));
    assert multiset(upcoming) + multiset(past) == multiset(events) by {
      forall e: Event
        ensures (multiset(upcoming) + multiset(past))[e] == multiset(events)[e]
      {
        assert multiset(upcoming)[e] == if IsUpcoming(e, today) then multiset(events)[e] else 0;
        assert multiset(past)[e] == if IsPast(e, today) then multiset(events)[e] else 0;
      }
    }
    assert |multiset(upcoming) + multiset(past)| == |multiset(events)|;
    forall e: Event | e.date == today
      ensures IsUpcoming(e, today)
    {
      Strings.LessIrreflexive(today);
    }
    Buckets(upcoming, past)
  }

  /** `compareDates`: -1, 0 or 1 as `date1` sorts before, equal to or
      after `date2` as strings. */
  function CompareDates(date1: string, date2: string): (r: int)
    ensures r == -1 || r == 0 || r == 1
    ensures r == 0 <==> date1 == date2
    ensures r < 0 <==> Strings.Less(date1, date2)
    ensures r > 0 <==> Strings.Less(date2, date1)
  {
    Strings.Compare(date1, date2)
  }

  /** Swapping the dates negates the comparison. */
  lemma CompareDatesAntisymmetric(date1: string, date2: string)
    ensures CompareDates(date1, date2) == -CompareDates(date2, date1)
  {
    Strings.LessTrichotomy(date1, date2);
  }

  // ---------------------------------------------------------------------
  // ISO dates
  // ---------------------------------------------------------------------

  predicate IsDigit(c: char)
  {
    '0' <= c <= '9'
  }

  predicate AllDigits(s: string)
  {
    forall i :: 0 <= i < |s| ==> IsDigit(s[i])
  }

  /** A fixed-width `YYYY-MM-DD` string. */
  predicate IsIsoDate(s: string)
  {
    |s| == 10 && s[4] == '-' && s[7] == '-'
    && AllDigits(s[..4]) && AllDigits(s[5..7]) && AllDigits(s[8..])
  }

  function Pow10(n: nat): (r: nat)
    ensures r > 0
  {
    if n == 0 then 1 else 10 * Pow10(n - 1)
  }

  /** The decimal number a string of digits spells. */
  function Number(s: string): (n: nat)
    requires AllDigits(s)
    ensures n < Pow10(|s|)
  {
    if |s| == 0 then 0
    else
      var d := s[0] as int - '0' as int;
      var p := Pow10(|s| - 1);
      var rest := Number(s[1..]);
      DigitBound(d, rest, p);
      d * p + rest
  }

  function Year(s: string): nat
    requires IsIsoDate(s)
  {
    Number(s[..4])
  }

  function Month(s: string): nat
    requires IsIsoDate(s)
  {
    Number(s[5..7])
  }

  function Day(s: string): nat
    requires IsIsoDate(s)
  {
    Number(s[8..])
  }

  /** The calendar order: `a` is an earlier day than `b`. */
  predicate EarlierDay(a: string, b: string)
    requires IsIsoDate(a) && IsIsoDate(b)
  {
    || Year(a) < Year(b)
    || (Year(a) == Year(b) && Month(a) < Month(b))
    || (Year(a) == Year(b) && Month(a) == Month(b) && Day(a) < Day(b))
  }

  /** A digit followed by a number of `p`'s width stays below `10 * p`. */
  lemma DigitBound(d: int, rest: int, p: nat)
    requires 0 <= d <= 9 && 0 <= rest < p
    ensures 0 <= d * p + rest < 10 * p
  {
    LeadingDigitDecides(d, 10, rest, 0, p);
  }

  /** A smaller leading digit makes a smaller number, whatever follows. */
  lemma LeadingDigitDecides(da: int, db: int, ra: int, rb: int, p: nat)
    requires da < db && 0 <= ra < p && 0 <= rb
    ensures da * p + ra < db * p + rb
  {
    var k := db - da;
    assert db * p == da * p + k * p;
    AtLeastOnce(k, p);
  }

  /** A positive multiple of `p` is at least `p`. */
  lemma {:induction false} AtLeastOnce(k: nat, p: nat)
    requires k >= 1
    ensures k * p >= p
    decreases k
  {
    if k > 1 {
      AtLeastOnce(k - 1, p);
      assert k * p == (k - 1) * p + p;
    }
  }

  /** On digit strings of one width, string order is numeric order. */
  lemma {:induction false} DigitsOrder(a: string, b: string)
    requires |a| == |b| && AllDigits(a) && AllDigits(b)
    ensures Strings.Less(a, b) <==> Number(a) < Number(b)
    ensures a == b <==> Number(a) == Number(b)
    decreases |a|
  {
    if |a| > 0 {
      var p := Pow10(|a| - 1);
      var da, db := a[0] as int - '0' as int, b[0] as int - '0' as int;
      assert Number(a) == da * p + Number(a[1..]);
      assert Number(b) == db * p + Number(b[1..]);
      if da < db {
        LeadingDigitDecides(da, db, Number(a[1..]), Number(b[1..]), p);
      } else if db < da {
        LeadingDigitDecides(db, da, Number(b[1..]), Number(a[1..]), p);
      } else {
        DigitsOrder(a[1..], b[1..]);
        assert a == [a[0]] + a[1..] && b == [b[0]] + b[1..];
      }
    }
  }

  /** Comparing two strings split at the same width compares the heads
      first and the tails on a tie. */
  lemma {:induction false} LessConcat(a1: string, a2: string, b1: string, b2: string)
    requires |a1| == |b1|
    ensures Strings.Less(a1 + a2, b1 + b2)
        <==> Strings.Less(a1, b1) || (a1 == b1 && Strings.Less(a2, b2))
    decreases |a1|
  {
    if |a1| > 0 {
      assert (a1 + a2)[1..] == a1[1..] + a2;
      assert (b1 + b2)[1..] == b1[1..] + b2;
      LessConcat(a1[1..], a2, b1[1..], b2);
      if a1[0] == b1[0] && a1[1..] == b1[1..] {
        assert a1 == [a1[0]] + a1[1..] && b1 == [b1[0]] + b1[1..];
      }
      if a1 == b1 {
        assert a1[1..] == b1[1..];
      }
    } else {
      assert a1 + a2 == a2 && b1 + b2 == b2;
    }
  }

  /** Comparing two strings of one length compares their first `n`
      characters and, on a tie, the rest. */
  lemma SplitAt(a: string, b: string, n: nat)
    requires |a| == |b| && n <= |a|
    ensures Strings.Less(a, b)
        <==> Strings.Less(a[..n], b[..n]) || (a[..n] == b[..n] && Strings.Less(a[n..], b[n..]))
    ensures a == b <==> a[..n] == b[..n] && a[n..] == b[n..]
  {
    assert a == a[..n] + a[n..] && b == b[..n] + b[n..];
    LessConcat(a[..n], a[n..], b[..n], b[n..]);
  }

  /** A common first character does not affect the comparison. */
  lemma SkipCommon(a: string, b: string)
    requires |a| == |b| && |a| > 0 && a[0] == b[0]
    ensures Strings.Less(a, b) <==> Strings.Less(a[1..], b[1..])
    ensures a == b <==> a[1..] == b[1..]
  {
    assert a == [a[0]] + a[1..] && b == [b[0]] + b[1..];
  }

  /** For ISO dates, string order is calendar order, which is why the
      tracker may compare dates as strings. */
  lemma IsoOrderIsChronological(a: string, b: string)
    requires IsIsoDate(a) && IsIsoDate(b)
    ensures Strings.Less(a, b) <==> EarlierDay(a, b)
    ensures a == b <==> (Year(a) == Year(b) && Month(a) == Month(b) && Day(a) == Day(b))
  {
    IsoFields(a, b);
    DigitsOrder(a[..4], b[..4]);
    DigitsOrder(a[5..7], b[5..7]);
    DigitsOrder(a[8..], b[8..]);
  }

  /** Comparing ISO dates as strings compares year, then month, then day. */
  lemma IsoFields(a: string, b: string)
    requires IsIsoDate(a) && IsIsoDate(b)
    ensures Strings.Less(a, b)
        <==> || Strings.Less(a[..4], b[..4])
             || (a[..4] == b[..4] && Strings.Less(a[5..7], b[5..7]))
             || (a[..4] == b[..4] && a[5..7] == b[5..7] && Strings.Less(a[8..], b[8..]))
    ensures a == b <==> a[..4] == b[..4] && a[5..7] == b[5..7] && a[8..] == b[8..]
  {
    var ra, rb := a[4..], b[4..];
    SplitAt(a, b, 4);
    SkipCommon(ra, rb);
    assert ra[1..] == a[5..] && rb[1..] == b[5..];
    SplitAt(a[5..], b[5..], 2);
    assert a[5..][..2] == a[5..7] && b[5..][..2] == b[5..7];
    assert a[5..][2..] == a[7..] && b[5..][2..] == b[7..];
    SkipCommon(a[7..], b[7..]);
    assert a[7..][1..] == a[8..] && b[7..][1..] == b[8..];
  }

  /** On ISO dates `compareDates` is the calendar comparison. */
  lemma CompareDatesIsChronological(date1: string, date2: string)
    requires IsIsoDate(date1) && IsIsoDate(date2)
    ensures CompareDates(date1, date2) < 0 <==> EarlierDay(date1, date2)
    ensures CompareDates(date1, date2) > 0 <==> EarlierDay(date2, date1)
  {
    IsoOrderIsChronological(date1, date2);
    IsoOrderIsChronological(date2, date1);
  }

  /** For ISO dates, an event is past exactly when it falls on an earlier
      day than today, and upcoming exactly when it does not. */
  lemma PastMeansEarlierDay(e: Event, today: string)
    requires IsIsoDate(e.date) && IsIsoDate(today)
    ensures IsPast(e, today) <==> EarlierDay(e.date, today)
    ensures IsUpcoming(e, today) <==> !EarlierDay(e.date, today)
  {
    IsoOrderIsChronological(e.date, today);
  }

  /** With today fixed at 2025-06-01, an event of 2025-01-01 is past and one
      of 2099-01-01 upcoming. */
  lemma CategorizeExample(e1: Event, e2: Event)
    requires e1.date == "2025-01-01" && e2.date == "2099-01-01"
    ensures CategorizeEventsByDate([e1, e2], "2025-06-01") == Buckets([e2], [e1])
  {
    ExampleDates(e1.date, e2.date, "2025-06-01");
    CategorizePair(e1, e2, "2025-06-01");
  }

  /** A past event followed by an upcoming one is split into one-element
      buckets. */
  lemma CategorizePair(e1: Event, e2: Event, today: string)
    requires Strings.Less(e1.date, today) && !Strings.Less(e2.date, today)
    ensures CategorizeEventsByDate([e1, e2], today) == Buckets([e2], [e1])
  {
    var up, past := UpcomingTest(today), PastTest(today);
    assert !up(e1) && up(e2) && past(e1) && !past(e2);
    var b := CategorizeEventsByDate([e1, e2], today);
    Seqs.SelectionUnique(b.upcoming, [e1, e2], up);
    Seqs.SelectionUnique(b.past, [e1, e2], past);
    assert [e1, e2] == [e1] + [e2] && [e2] == [e2] + [];
    Seqs.FilterCons(e1, [e2], up);
    Seqs.FilterCons(e1, [e2], past);
    Seqs.FilterCons(e2, [], up);
    Seqs.FilterCons(e2, [], past);
  }

  lemma ExampleDates(d1: string, d2: string, today: string)
    requires d1 == "2025-01-01" && d2 == "2099-01-01" && today == "2025-06-01"
    ensures Strings.Less(d1, today) && !Strings.Less(d2, today)
  {
    assert Strings.Less(d1[6..], today[6..]);
    assert Strings.Less(today[2..], d2[2..]);
    LessConcat(d1[..6], d1[6..], today[..6], today[6..]);
    LessConcat(today[..2], today[2..], d2[..2], d2[2..]);
    assert d1 == d1[..6] + d1[6..] && today == today[..6] + today[6..];
    assert d2 == d2[..2] + d2[2..] && today == today[..2] + today[2..];
    Strings.LessTrichotomy(today, d2);
  }
}

=== FILE: filter_utils.dfy ===
/** The filter engine: free-text search, status and category filters, and
    their conjunction. */
module Filters {
  import opened Model
  import Strings
  import Seqs

  /** The criteria `applyAllFilters` reads. A criterion the caller leaves
      undefined is the empty string: both are falsy to the filters. */
  datatype Criteria = Criteria(searchText: string, statusFilter: string, categoryFilter: string)

  /** The criteria the tracker starts with. */
  const NoFilters := Criteria("", "All", "All")

  // ---------------------------------------------------------------------
  // The three predicates, each accepting everything while inactive
  // ---------------------------------------------------------------------

  /** A search text that is empty or only white space disables the search. */
  predicate IsBlank(text: string)
  {
    Strings.Trim(text) == ""
  }

  /** The query an active search looks for: lower-cased, then trimmed. */
  function Query(text: string): string
  {
    Strings.Trim(Strings.Lower(text))
  }

  /** The lower-cased name or the lower-cased category contains `query`. */
  predicate MatchesQuery(query: string, e: Event)
  {
    Strings.Contains(Strings.Lower(e.name), query)
    || Strings.Contains(Strings.Lower(e.category), query)
  }

  /** `'All'` and the empty string are the no-filter sentinels. */
  predicate IsAll(f: string)
  {
    f == "" || f == "All"
  }

  predicate SearchAccepts(searchText: string, e: Event)
  {
    IsBlank(searchText) || MatchesQuery(Query(searchText), e)
  }

  predicate StatusAccepts(statusFilter: string, e: Event)
  {
    IsAll(statusFilter) || e.status == statusFilter
  }

  predicate CategoryAccepts(categoryFilter: string, e: Event)
  {
    IsAll(categoryFilter) || e.category == categoryFilter
  }

  /** The conjunction of the three active predicates. */
  predicate Accepts(c: Criteria, e: Event)
  {
    SearchAccepts(c.searchText, e)
    && StatusAccepts(c.statusFilter, e)
    && CategoryAccepts(c.categoryFilter, e)
  }

  function SearchTest(searchText: string): Event -> bool
  {
    e => SearchAccepts(searchText, e)
  }

  function StatusTest(statusFilter: string): Event -> bool
  {
    e => StatusAccepts(statusFilter, e)
  }

  function CategoryTest(categoryFilter: string): Event -> bool
  {
    e => CategoryAccepts(categoryFilter, e)
  }

  function AcceptsTest(c: Criteria): Event -> bool
  {
    e => Accepts(c, e)
  }

  // ---------------------------------------------------------------------
  // The filters
  // ---------------------------------------------------------------------

  /** `filterBySearch`: a blank search text returns `events` itself;
      otherwise the result keeps, in order, exactly the events whose
      lower-cased name or category contains the query. */
  function FilterBySearch(events: seq<Event>, searchText: string): (r: seq<Event>)
    ensures IsBlank(searchText) ==> r == events
    ensures Seqs.IsSelection(r, events, SearchTest(searchText))
  {
    if IsBlank(searchText) then
      Seqs.WholeIsSelection(events, SearchTest(searchText));
      events
    else
      var query := Query(searchText);
      var keep := (e: Event) => MatchesQuery(query, e);
      var r := Seqs.Filter(events, keep);
      Seqs.FilterIsSelection(events, keep);
      Seqs.SelectionCongruence(r, events, keep, SearchTest(searchText));
      r
  }

  /** `filterByStatus`: `'All'` or empty returns `events` itself; otherwise
      the result keeps, in order, exactly the events with that status. */
  function FilterByStatus(events: seq<Event>, statusFilter: string): (r: seq<Event>)
    ensures IsAll(statusFilter) ==> r == events
    ensures Seqs.IsSelection(r, events, StatusTest(statusFilter))
  {
    if IsAll(statusFilter) then
      Seqs.WholeIsSelection(events, StatusTest(statusFilter));
      events
    else
      var keep := (e: Event) => e.status == statusFilter;
      var r := Seqs.Filter(events, keep);
      Seqs.FilterIsSelection(events, keep);
      Seqs.SelectionCongruence(r, events, keep, StatusTest(statusFilter));
      r
  }

  /** `filterByCategory`: `'All'` or empty returns `events` itself;
      otherwise the result keeps, in order, exactly the events of that
      category. */
  function FilterByCategory(events: seq<Event>, categoryFilter: string): (r: seq<Event>)
    ensures IsAll(categoryFilter) ==> r == events
    ensures Seqs.IsSelection(r, events, CategoryTest(categoryFilter))
  {
    if IsAll(categoryFilter) then
      Seqs.WholeIsSelection(events, CategoryTest(categoryFilter));
      events
    else
      var keep := (e: Event) => e.category == categoryFilter;
      var r := Seqs.Filter(events, keep);
      Seqs.FilterIsSelection(events, keep);
      Seqs.SelectionCongruence(r, events, keep, CategoryTest(categoryFilter));
      r
  }

  /** `applyAllFilters`: search, then status, then category. The result is
      an order-preserving subsequence of `events` holding exactly the
      events every active predicate accepts. */
  function ApplyAllFilters(events: seq<Event>, filters: Criteria): (r: seq<Event>)
    ensures Seqs.IsSelection(r, events, AcceptsTest(filters))
    ensures forall e :: e in r <==> e in events && Accepts(filters, e)
  {
    var afterSearch := FilterBySearch(events, filters.searchText);
    var afterStatus := FilterByStatus(afterSearch, filters.statusFilter);
    var r := FilterByCategory(afterStatus, filters.categoryFilter);
    Seqs.SubsequenceTransitive(afterStatus, afterSearch, events);
    Seqs.SubsequenceTransitive(r, afterStatus, events);
    ChainedCounts(events, filters);
    Seqs.SelectionMembers(r, events, AcceptsTest(filters));
    r
  }

  /** Each occurrence survives the three filters exactly when all three
      predicates accept it. */
  lemma ChainedCounts(events: seq<Event>, filters: Criteria)
    ensures var r := FilterByCategory(FilterByStatus(FilterBySearch(events, filters.searchText),
                                                     filters.statusFilter), filters.categoryFilter);
            Seqs.SameCounts(r, events, AcceptsTest(filters))
  {
    var afterSearch := FilterBySearch(events, filters.searchText);
    var afterStatus := FilterByStatus(afterSearch, filters.statusFilter);
    var r := FilterByCategory(afterStatus, filters.categoryFilter);
    forall e: Event
      ensures multiset(r)[e] == if Accepts(filters, e) then multiset(events)[e] else 0
    {
      assert multiset(r)[e] == if CategoryAccepts(filters.categoryFilter, e) then multiset(afterStatus)[e] else 0;
      assert multiset(afterStatus)[e] == if StatusAccepts(filters.statusFilter, e) then multiset(afterSearch)[e] else 0;
      assert multiset(afterSearch)[e] == if SearchAccepts(filters.searchText, e) then multiset(events)[e] else 0;
    }
  }

  // ---------------------------------------------------------------------
  // Properties
  // ---------------------------------------------------------------------

  /** The three chained filters select what one filter by the conjunction
      of the three predicates selects. */
  lemma ApplyAllFiltersIsConjunction(events: seq<Event>, filters: Criteria)
    ensures ApplyAllFilters(events, filters) == Seqs.Filter(events, AcceptsTest(filters))
  {
    Seqs.SelectionUnique(ApplyAllFilters(events, filters), events, AcceptsTest(filters));
  }

  /** The order in which the three filters run is not observable: running
      them as category, then status, then search gives the same sequence. */
  lemma FilterOrderUnobservable(events: seq<Event>, filters: Criteria)
    ensures ApplyAllFilters(events, filters)
         == FilterBySearch(FilterByStatus(FilterByCategory(events, filters.categoryFilter),
                                          filters.statusFilter),
                           filters.searchText)
  {
    var afterCategory := FilterByCategory(events, filters.categoryFilter);
    var afterStatus := FilterByStatus(afterCategory, filters.statusFilter);
    var r := FilterBySearch(afterStatus, filters.searchText);
    Seqs.SubsequenceTransitive(afterStatus, afterCategory, events);
    Seqs.SubsequenceTransitive(r, afterStatus, events);
    assert Seqs.SameCounts(r, events, AcceptsTest(filters)) by {
      forall e: Event
        ensures multiset(r)[e] == if Accepts(filters, e) then multiset(events)[e] else 0
      {
        assert multiset(r)[e] == if SearchAccepts(filters.searchText, e) then multiset(afterStatus)[e] else 0;
        assert multiset(afterStatus)[e] == if StatusAccepts(filters.statusFilter, e) then multiset(afterCategory)[e] else 0;
        assert multiset(afterCategory)[e] == if CategoryAccepts(filters.categoryFilter, e) then multiset(events)[e] else 0;
      }
    }
    Seqs.SelectionUnique(r, events, AcceptsTest(filters));
    ApplyAllFiltersIsConjunction(events, filters);
  }

  /** The initial criteria filter nothing out. */
  lemma NoFiltersIsIdentity(events: seq<Event>)
    ensures ApplyAllFilters(events, NoFilters) == events
  {
    FilterSteps(events, NoFilters);
    InactiveFiltersKeepAll(events);
  }

  /** `applyAllFilters` is the composition of the three filters. */
  lemma FilterSteps(events: seq<Event>, c: Criteria)
    ensures ApplyAllFilters(events, c)
         == FilterByCategory(FilterByStatus(FilterBySearch(events, c.searchText), c.statusFilter), c.categoryFilter)
  {
  }

  /** None of the three filters is active under the initial criteria. */
  lemma InactiveFiltersKeepAll(events: seq<Event>)
    ensures FilterByCategory(FilterByStatus(FilterBySearch(events, NoFilters.searchText),
                                            NoFilters.statusFilter), NoFilters.categoryFilter) == events
  {
    SearchInactive(events);
    StatusInactive(events);
    CategoryInactive(events);
  }

  lemma SearchInactive(events: seq<Event>)
    ensures FilterBySearch(events, NoFilters.searchText) == events
  {
    EmptyIsBlank();
  }

  lemma StatusInactive(events: seq<Event>)
    ensures FilterByStatus(events, NoFilters.statusFilter) == events
  {
    assert IsAll(NoFilters.statusFilter);
  }

  lemma CategoryInactive(events: seq<Event>)
    ensures FilterByCategory(events, NoFilters.categoryFilter) == events
  {
    assert IsAll(NoFilters.categoryFilter);
  }

  lemma EmptyIsBlank()
    ensures IsBlank("")
  {
    var none: string := "";
    assert Strings.Trim(none) == [];
  }

  /** An empty collection stays empty under any criteria. */
  lemma EmptyStaysEmpty(filters: Criteria)
    ensures ApplyAllFilters([], filters) == []
  {
    Seqs.SubsequenceCounts(ApplyAllFilters([], filters), []);
  }

  /** A search text that is not blank yields a non-empty query, which is
      the lower-cased trimmed text; so an active search never degenerates
      into the empty query that every string contains. */
  lemma ActiveQueryIsNonEmpty(searchText: string)
    requires !IsBlank(searchText)
    ensures Query(searchText) == Strings.Lower(Strings.Trim(searchText))
    ensures |Query(searchText)| > 0
  {
    Strings.TrimLowerCommute(searchText);
  }

  /** Search is case-insensitive and matches the category as well as the
      name: the query `cloud` finds an event whose category is
      `Cloud Computing`. */
  lemma SearchMatchesCategoryIgnoringCase(e: Event)
    requires e.category == "Cloud Computing"
    ensures SearchAccepts("cloud", e)
    ensures FilterBySearch([e], "cloud") == [e]
  {
    CloudQuery();
    CloudComputingContainsCloud(e.category);
    var r := FilterBySearch([e], "cloud");
    Seqs.SelectionUnique(r, [e], SearchTest("cloud"));
  }

  lemma CloudQuery()
    ensures !IsBlank("cloud") && Query("cloud") == "cloud"
  {
    var q := "cloud";
    assert q[0] == 'c' && q[|q| - 1] == 'd';
    assert forall i :: 0 <= i < |q| ==> 'a' <= q[i] <= 'z';
    Strings.LowerOfLowercase(q);
    Strings.TrimUntrimmed(q);
  }

  lemma CloudComputingContainsCloud(category: string)
    requires category == "Cloud Computing"
    ensures Strings.Contains(Strings.Lower(category), "cloud")
  {
    var lowered := Strings.Lower(category);
    assert lowered[..5] == "cloud" by {
      assert forall i :: 0 <= i < 5 ==> lowered[i] == Strings.LowerChar(category[i]);
    }
    assert Strings.OccursAt(lowered, "cloud", 0);
  }
}

=== FILE: local_storage.dfy ===
/** The persistence store: save, load and clear of the event collection
    under one fixed key of the browser's key-value storage. The storage is a
    map from keys to stored texts; what `JSON.parse` makes of a text is part
    of the text's model, and whether each storage call succeeds is a
    parameter. */
module Storage {
  import opened Model
  import opened Wrappers

  /** The one key the tracker uses. */
  const StorageKey: string := "bengaluru-tech-events"

  /** The `events` property of a parsed document: absent (or another falsy
      value), present but not an array, or an array of events. */
  datatype EventsField = Missing | NotAnArray | EventArray(items: seq<Event>)

  /** What `JSON.parse` returns for a stored text: `null`, or a value whose
      `events` property is read. A number, string or array parses to a value
      without an `events` property, an `Object(Missing, _)`. */
  datatype Document = Null | Object(events: EventsField, lastUpdated: string)

  /** A stored text: the empty string, text `JSON.parse` rejects, or JSON. */
  datatype Text = Empty | Unparseable | Json(doc: Document)

  /** Browser storage: the text stored under each key. */
  type Store = map<string, Text>

  /** Which storage calls succeed: `getItem`, `setItem` (which fails, for
      one, when the quota is exceeded) and `removeItem`. */
  datatype Io = Io(readOk: bool, writeOk: bool, removeOk: bool)

  /** The persisted envelope `{events, lastUpdated}`. */
  function Envelope(events: seq<Event>, lastUpdated: string): Text
  {
    Json(Object(EventArray(events), lastUpdated))
  }

  /** A text `loadFromLocalStorage` accepts: JSON whose `events` property is
      an array. */
  predicate IsWellFormed(t: Text)
  {
    t.Json? && t.doc.Object? && t.doc.events.EventArray?
  }

  /** A text `loadFromLocalStorage` discards: anything but the empty string
      and a well-formed envelope. */
  predicate IsCorrupt(t: Text)
  {
    t != Empty && !IsWellFormed(t)
  }

  /** No key but `StorageKey` differs between the two stores. */
  ghost predicate OthersUnchanged(before: Store, after: Store)
  {
    forall k :: k != StorageKey ==>
      (k in before <==> k in after) && (k in before ==> before[k] == after[k])
  }

  /** The outcome of `saveToLocalStorage`: the store afterwards and the
      boolean it returns. */
  datatype Saved = Saved(store: Store, ok: bool)

  /** `saveToLocalStorage`: writes the envelope of `events`, stamped `now`,
      under the fixed key and returns `true`; when the write fails it
      returns `false` and the store is as it was. Other keys never change. */
  function SaveToLocalStorage(store: Store, events: seq<Event>, now: string, io: Io): (r: Saved)
    ensures r.ok == io.writeOk
    ensures r.ok ==> StorageKey in r.store && r.store[StorageKey] == Envelope(events, now)
    ensures !r.ok ==> r.store == store
    ensures OthersUnchanged(store, r.store)
  {
    if io.writeOk then
      Saved(store[StorageKey := Envelope(events, now)], true)
    else
      Saved(store, false)
  }

  /** `clearLocalStorage`: removes the fixed key; a failed removal is
      swallowed and leaves the store as it was. Other keys never change. */
  function ClearLocalStorage(store: Store, io: Io): (r: Store)
    ensures io.removeOk ==> StorageKey !in r
    ensures !io.removeOk ==> r == store
    ensures OthersUnchanged(store, r)
  {
    if io.removeOk then store - {StorageKey} else store
  }

  /** The outcome of `loadFromLocalStorage`: the store afterwards and the
      events it returns, `None` standing for `null`. */
  datatype Loaded = Loaded(store: Store, events: Option<seq<Event>>)

  /** `loadFromLocalStorage`. A missing key or an empty text yields `None`
      and leaves the store alone; a well-formed envelope yields its events
      and leaves the store alone; anything else, and a failing read, yields
      `None` and attempts to clear the key: it is removed when removal
      works and otherwise left as is. */
  function LoadFromLocalStorage(store: Store, io: Io): (r: Loaded)
    ensures r.events.Some? <==> io.readOk && StorageKey in store && IsWellFormed(store[StorageKey])
    ensures r.events.Some? ==> r.events.value == store[StorageKey].doc.events.items && r.store == store
    ensures io.readOk && (StorageKey !in store || store[StorageKey] == Empty) ==> r.store == store
    ensures (!io.readOk || (StorageKey in store && IsCorrupt(store[StorageKey])))
              ==> r.store == ClearLocalStorage(store, io)
    ensures OthersUnchanged(store, r.store)
  {
    if !io.readOk then
      Loaded(ClearLocalStorage(store, io), None)
    else if StorageKey !in store then
      Loaded(store, None)
    else
      match store[StorageKey]
      case Empty => Loaded(store, None)
      case Unparseable => Loaded(ClearLocalStorage(store, io), None)
      case Json(Null) => Loaded(ClearLocalStorage(store, io), None)
      case Json(Object(EventArray(items), _)) => Loaded(store, Some(items))
      case Json(Object(_, _)) => Loaded(ClearLocalStorage(store, io), None)
  }

  // ---------------------------------------------------------------------
  // Properties
  // ---------------------------------------------------------------------

  /** A successful save followed by a load returns the saved events, field
      for field, and the load leaves the store as the save left it. */
  lemma SaveThenLoad(store: Store, events: seq<Event>, now: string, io: Io)
    requires io.writeOk && io.readOk
    ensures var saved := SaveToLocalStorage(store, events, now, io);
            LoadFromLocalStorage(saved.store, io) == Loaded(saved.store, Some(events))
  {
  }

  /** A failed save is invisible to the next load. */
  lemma FailedSaveThenLoad(store: Store, events: seq<Event>, now: string, io: Io)
    requires !io.writeOk
    ensures var saved := SaveToLocalStorage(store, events, now, io);
            !saved.ok && LoadFromLocalStorage(saved.store, io) == LoadFromLocalStorage(store, io)
  {
  }

  /** A corrupted entry is discarded: the load returns `None` and, when
      removal works, the key is gone afterwards. */
  lemma LoadHealsCorruption(store: Store, io: Io)
    requires StorageKey in store && IsCorrupt(store[StorageKey])
    ensures LoadFromLocalStorage(store, io).events == None
    ensures io.removeOk ==> StorageKey !in LoadFromLocalStorage(store, io).store
  {
  }

  /** Loading is idempotent: a second load returns what the first returned
      and changes nothing more, since the first already discarded any
      corrupted entry it could. */
  lemma LoadIdempotent(store: Store, io: Io)
    ensures var first := LoadFromLocalStorage(store, io);
            LoadFromLocalStorage(first.store, io) == first
  {
  }

  /** Clearing twice is clearing once. */
  lemma ClearIdempotent(store: Store, io: Io)
    ensures ClearLocalStorage(ClearLocalStorage(store, io), io) == ClearLocalStorage(store, io)
  {
  }

  /** After a successful clear a load finds nothing and changes nothing. */
  lemma ClearThenLoad(store: Store, io: Io)
    requires io.removeOk
    ensures var cleared := ClearLocalStorage(store, io);
            LoadFromLocalStorage(cleared, io) == Loaded(cleared, None)
  {
  }
}

=== FILE: seqs.dfy ===
/** Order-preserving selection from a sequence: `Array.prototype.filter`,
    the subsequence relation, and the fact that a selection is determined by
    its predicate alone. */
module Seqs {

  /** `r` can be obtained from `s` by deleting elements: every element of
      `r` comes from `s`, in the same relative order. */
  predicate Subsequence<T(==)>(r: seq<T>, s: seq<T>)
    decreases |s|
  {
    if |r| == 0 then true
    else if |s| == 0 then false
    else (r[0] == s[0] && Subsequence(r[1..], s[1..])) || Subsequence(r, s[1..])
  }

  /** The occurrences in `r` of `x` are those in `s` when `p` accepts `x`,
      and none otherwise. */
  ghost predicate SameCounts<T(!new)>(r: seq<T>, s: seq<T>, p: T -> bool)
  {
    forall x :: multiset(r)[x] == if p(x) then multiset(s)[x] else 0
  }

  /** `r` is the selection from `s` of the elements `p` accepts: a
      subsequence of `s` holding every accepted occurrence and nothing else. */
  ghost predicate IsSelection<T(!new)>(r: seq<T>, s: seq<T>, p: T -> bool)
  {
    Subsequence(r, s) && SameCounts(r, s, p)
  }

  /** `s.filter(p)`: keeps the elements `p` accepts, in their order. */
  function Filter<T>(s: seq<T>, p: T -> bool): (r: seq<T>)
    ensures forall i :: 0 <= i < |r| ==> r[i] in s && p(r[i])
    ensures forall i :: 0 <= i < |s| && p(s[i]) ==> s[i] in r
    ensures |r| <= |s|
  {
    if |s| == 0 then []
    else
      var rest := Filter(s[1..], p);
      var r := if p(s[0]) then [s[0]] + rest else rest;
      assert forall i :: 0 < i < |s| ==> s[i] == s[1..][i - 1];
      assert p(s[0]) ==> forall i :: 0 < i < |r| ==> r[i] == rest[i - 1];
      r
  }

  /** The conjunction of two predicates. */
  function And<T>(p: T -> bool, q: T -> bool): T -> bool
  {
    x => p(x) && q(x)
  }

  /** One step of `Filter`. */
  lemma FilterUnfold<T>(s: seq<T>, p: T -> bool)
    requires |s| > 0
    ensures Filter(s, p) == (if p(s[0]) then [s[0]] else []) + Filter(s[1..], p)
  {
  }

  /** Filtering a sequence with a given first element. */
  lemma FilterCons<T>(a: T, s: seq<T>, p: T -> bool)
    ensures Filter([a] + s, p) == (if p(a) then [a] else []) + Filter(s, p)
  {
    assert ([a] + s)[0] == a && ([a] + s)[1..] == s;
    FilterUnfold([a] + s, p);
  }

  /** What `Filter` returns is the selection by its predicate. */
  lemma {:induction false} FilterIsSelection<T(!new)>(s: seq<T>, p: T -> bool)
    ensures IsSelection(Filter(s, p), s, p)
    decreases |s|
  {
    if |s| > 0 {
      FilterIsSelection(s[1..], p);
      var rest := Filter(s[1..], p);
      assert s == [s[0]] + s[1..];
      if p(s[0]) {
        assert Filter(s, p) == [s[0]] + rest;
        assert Filter(s, p)[1..] == rest;
      }
    }
  }

  // ---------------------------------------------------------------------
  // Facts about subsequences
  // ---------------------------------------------------------------------

  lemma {:induction false} SubsequenceReflexive<T>(s: seq<T>)
    ensures Subsequence(s, s)
    decreases |s|
  {
    if |s| > 0 {
      SubsequenceReflexive(s[1..]);
    }
  }

  /** A subsequence never holds more occurrences of a value than the
      sequence it is taken from. */
  lemma {:induction false} SubsequenceCounts<T>(r: seq<T>, s: seq<T>)
    requires Subsequence(r, s)
    ensures multiset(r) <= multiset(s)
    ensures |r| <= |s|
    decreases |s|
  {
    if |r| > 0 {
      assert s == [s[0]] + s[1..];
      if r[0] == s[0] && Subsequence(r[1..], s[1..]) {
        SubsequenceCounts(r[1..], s[1..]);
        assert r == [r[0]] + r[1..];
      } else {
        SubsequenceCounts(r, s[1..]);
      }
    }
  }

  /** Every element of a subsequence comes from the whole sequence. */
  lemma SubsequenceMembers<T>(r: seq<T>, s: seq<T>)
    requires Subsequence(r, s)
    ensures forall x :: x in r ==> x in s
  {
    SubsequenceCounts(r, s);
    forall x | x in r
      ensures x in s
    {
      assert multiset(r)[x] > 0;
    }
  }

  lemma {:induction false} SubsequenceTransitive<T>(a: seq<T>, b: seq<T>, c: seq<T>)
    requires Subsequence(a, b) && Subsequence(b, c)
    ensures Subsequence(a, c)
    decreases |c|
  {
    if |a| > 0 {
      assert |b| > 0 && |c| > 0;
      if b[0] == c[0] && Subsequence(b[1..], c[1..]) {
        if a[0] == b[0] && Subsequence(a[1..], b[1..]) {
          SubsequenceTransitive(a[1..], b[1..], c[1..]);
        } else {
          SubsequenceTransitive(a, b[1..], c[1..]);
        }
      } else {
        SubsequenceTransitive(a, b, c[1..]);
      }
    }
  }

  // ---------------------------------------------------------------------
  // Facts about selections
  // ---------------------------------------------------------------------

  /** A selection is determined by the sequence and the predicate: any two
      selections by the same predicate are equal, and both equal `Filter`. */
  lemma {:induction false} SelectionUnique<T(!new)>(r: seq<T>, s: seq<T>, p: T -> bool)
    requires IsSelection(r, s, p)
    ensures r == Filter(s, p)
    decreases |s|
  {
    if |s| == 0 {
      SubsequenceCounts(r, s);
    } else {
      var s0, t := s[0], s[1..];
      assert s == [s0] + t;
      assert multiset(s)[s0] == multiset(t)[s0] + 1;
      if p(s0) {
        assert multiset(r)[s0] > 0;
        assert |r| > 0;
        if r[0] == s0 && Subsequence(r[1..], t) {
          assert r == [s0] + r[1..];
          assert SameCounts(r[1..], t, p) by {
            forall x
              ensures multiset(r[1..])[x] == if p(x) then multiset(t)[x] else 0
            {
              assert multiset(r)[x] == multiset(r[1..])[x] + (if x == s0 then 1 else 0);
            }
          }
          SelectionUnique(r[1..], t, p);
        } else {
          assert Subsequence(r, t);
          SubsequenceCounts(r, t);
          assert false;
        }
      } else {
        assert s0 !in r by {
          assert multiset(r)[s0] == 0;
        }
        assert Subsequence(r, t) by {
          if |r| > 0 {
            assert r[0] != s0;
          }
        }
        assert SameCounts(r, t, p) by {
          forall x
            ensures multiset(r)[x] == if p(x) then multiset(t)[x] else 0
          {
            if x != s0 {
              assert multiset(s)[x] == multiset(t)[x];
            }
          }
        }
        SelectionUnique(r, t, p);
      }
    }
  }

  /** A selection depends on its predicate only through the values it
      accepts. */
  lemma SelectionCongruence<T(!new)>(r: seq<T>, s: seq<T>, p: T -> bool, q: T -> bool)
    requires IsSelection(r, s, p)
    requires forall x :: p(x) == q(x)
    ensures IsSelection(r, s, q)
  {
  }

  /** A sequence is its own selection by a predicate that accepts all its
      elements. */
  lemma WholeIsSelection<T(!new)>(s: seq<T>, p: T -> bool)
    requires forall x :: x in s ==> p(x)
    ensures IsSelection(s, s, p)
  {
    SubsequenceReflexive(s);
  }

  /** An element is in a selection exactly when it is in the sequence and
      the predicate accepts it. */
  lemma SelectionMembers<T(!new)>(r: seq<T>, s: seq<T>, p: T -> bool)
    requires IsSelection(r, s, p)
    ensures forall x :: x in r <==> x in s && p(x)
  {
    forall x
      ensures x in r <==> x in s && p(x)
    {
      assert x in r <==> multiset(r)[x] > 0;
      assert x in s <==> multiset(s)[x] > 0;
    }
  }

  /** Two sequences with the same elements and the same head have tails
      with the same elements. */
  lemma MultisetTails<T>(r1: seq<T>, r2: seq<T>)
    requires |r1| > 0 && |r2| > 0 && r1[0] == r2[0]
    requires multiset(r1) == multiset(r2)
    ensures multiset(r1[1..]) == multiset(r2[1..])
  {
    assert r1 == [r1[0]] + r1[1..] && r2 == [r2[0]] + r2[1..];
    assert multiset(r1) == multiset{r1[0]} + multiset(r1[1..]);
    assert multiset(r2) == multiset{r1[0]} + multiset(r2[1..]);
    forall x
      ensures multiset(r1[1..])[x] == multiset(r2[1..])[x]
    {
      assert multiset(r1)[x] == multiset(r2)[x];
    }
  }

  /** Filtering distributes over concatenation. */
  lemma {:induction false} FilterConcat<T(!new)>(a: seq<T>, b: seq<T>, p: T -> bool)
    ensures Filter(a + b, p) == Filter(a, p) + Filter(b, p)
    decreases |a|
  {
    if |a| == 0 {
      assert a + b == b;
    } else {
      var x, rest := a[0], a[1..];
      var head := if p(x) then [x] else [];
      assert a == [x] + rest;
      calc {
        Filter(a + b, p);
        { assert a + b == [x] + (rest + b); }
        Filter([x] + (rest + b), p);
        { FilterCons(x, rest + b, p); }
        head + Filter(rest + b, p);
        { FilterConcat(rest, b, p); }
        head + (Filter(rest, p) + Filter(b, p));
        (head + Filter(rest, p)) + Filter(b, p);
        { FilterCons(x, rest, p); }
        Filter(a, p) + Filter(b, p);
      }
    }
  }

  /** Two successive filters select what one filter by the conjunction of
      their predicates selects. */
  lemma FilterFilter<T(!new)>(s: seq<T>, p: T -> bool, q: T -> bool, pq: T -> bool)
    requires forall x :: pq(x) == (p(x) && q(x))
    ensures Filter(Filter(s, p), q) == Filter(s, pq)
  {
    var r := Filter(Filter(s, p), q);
    FilterIsSelection(s, p);
    FilterIsSelection(Filter(s, p), q);
    SubsequenceTransitive(r, Filter(s, p), s);
    SelectionUnique(r, s, pq);
  }

  /** Filtering sequences with the same elements gives sequences with the
      same elements. */
  lemma FilterSameCounts<T(!new)>(a: seq<T>, b: seq<T>, p: T -> bool)
    requires multiset(a) == multiset(b)
    ensures multiset(Filter(a, p)) == multiset(Filter(b, p))
  {
    FilterIsSelection(a, p);
    FilterIsSelection(b, p);
    forall x
      ensures multiset(Filter(a, p))[x] == multiset(Filter(b, p))[x]
    {
    }
  }

}

=== FILE: sort_utils.dfy ===
/** The sort engine: four copy-then-sort policies and the dispatcher that
    picks one by name. Sorting is modelled as a stable insertion sort driven
    by each policy's comparator, as `Array.prototype.sort` is stable; the
    uniqueness theorem below shows that any stable sort with the same
    comparator returns the same sequence. Sequences are values, so the
    caller's sequence is never modified, as the source's `[...events]` copy
    ensures. */
module Sorting {
  import opened Model
  import opened Wrappers
  import Strings
  import Seqs

  /** The sort policies `applySorting` recognises. */
  datatype Policy = Soonest | Latest | ByName | ByCategory

  /** The option strings of `applySorting`; any other string selects no
      policy. */
  function ParsePolicy(option: string): Option<Policy>
  {
    if option == "soonest" then Some(Soonest)
    else if option == "latest" then Some(Latest)
    else if option == "name" then Some(ByName)
    else if option == "category" then Some(ByCategory)
    else None
  }

  /** The comparator each policy hands to `sort`: negative keeps `a` before
      `b`, positive puts `b` first. Dates compare as strings; `localeCompare`
      on names and categories is the ordinal comparison. */
  function Comparator(p: Policy, a: Event, b: Event): int
  {
    match p
    case Soonest => Strings.Compare(a.date, b.date)
    case Latest => Strings.Compare(b.date, a.date)
    case ByName => Strings.Compare(a.name, b.name)
    case ByCategory =>
      var byCategory := Strings.Compare(a.category, b.category);
      if byCategory != 0 then byCategory else Strings.Compare(a.name, b.name)
  }

  /** The comparator lets `a` stay ahead of `b`. */
  predicate InOrder(p: Policy, a: Event, b: Event)
  {
    Comparator(p, a, b) <= 0
  }

  /** The order each policy intends, stated on the fields it reads:
      ascending date, descending date, ascending name, and ascending
      category with ascending name inside one category. */
  predicate KeysInOrder(p: Policy, a: Event, b: Event)
  {
    match p
    case Soonest => Strings.LessEq(a.date, b.date)
    case Latest => Strings.LessEq(b.date, a.date)
    case ByName => Strings.LessEq(a.name, b.name)
    case ByCategory =>
      Strings.Less(a.category, b.category)
      || (a.category == b.category && Strings.LessEq(a.name, b.name))
  }

  /** The fields a policy compares. */
  function Key(p: Policy, e: Event): seq<string>
  {
    match p
    case Soonest => [e.date]
    case Latest => [e.date]
    case ByName => [e.name]
    case ByCategory => [e.category, e.name]
  }

  // ---------------------------------------------------------------------
  // The comparators are total preorders
  // ---------------------------------------------------------------------

  /** Each comparator puts `a` ahead of `b` exactly in the intended order. */
  lemma InOrderMeaning(p: Policy, a: Event, b: Event)
    ensures InOrder(p, a, b) <==> KeysInOrder(p, a, b)
  {
    Strings.LessTrichotomy(a.date, b.date);
    Strings.LessTrichotomy(a.name, b.name);
    Strings.LessTrichotomy(a.category, b.category);
  }

  /** Each comparator returns `-1`, `0` or `1`, is antisymmetric, and
      reports a tie exactly when the compared fields are equal. */
  lemma ComparatorProperties(p: Policy, a: Event, b: Event)
    ensures Comparator(p, a, b) in {-1, 0, 1}
    ensures Comparator(p, a, b) == -Comparator(p, b, a)
    ensures Comparator(p, a, b) == 0 <==> Key(p, a) == Key(p, b)
  {
    Strings.LessTrichotomy(a.date, b.date);
    Strings.LessTrichotomy(a.name, b.name);
    Strings.LessTrichotomy(a.category, b.category);
    if Key(p, a) == Key(p, b) {
      match p
      case ByCategory =>
        assert Key(p, a)[0] == Key(p, b)[0] && Key(p, a)[1] == Key(p, b)[1];
      case _ =>
        assert Key(p, a)[0] == Key(p, b)[0];
    }
  }

  lemma InOrderTotal(p: Policy, a: Event, b: Event)
    ensures InOrder(p, a, b) || InOrder(p, b, a)
  {
    ComparatorProperties(p, a, b);
  }

  lemma InOrderTransitive(p: Policy, a: Event, b: Event, c: Event)
    requires InOrder(p, a, b) && InOrder(p, b, c)
    ensures InOrder(p, a, c)
  {
    InOrderMeaning(p, a, b);
    InOrderMeaning(p, b, c);
    InOrderMeaning(p, a, c);
    match p
    case Soonest =>
      Strings.LessEqTransitive(a.date, b.date, c.date);
    case Latest =>
      Strings.LessEqTransitive(c.date, b.date, a.date);
    case ByName =>
      Strings.LessEqTransitive(a.name, b.name, c.name);
    case ByCategory =>
      if a.category == b.category && b.category == c.category {
        Strings.LessEqTransitive(a.name, b.name, c.name);
      } else if a.category == b.category {
      } else if b.category == c.category {
      } else {
        Strings.LessTransitive(a.category, b.category, c.category);
      }
  }

  /** Two events that may each stay ahead of the other tie. */
  lemma InOrderBothWays(p: Policy, a: Event, b: Event)
    requires InOrder(p, a, b) && InOrder(p, b, a)
    ensures Key(p, a) == Key(p, b)
  {
    ComparatorProperties(p, a, b);
  }

  // ---------------------------------------------------------------------
  // Sorting
  // ---------------------------------------------------------------------

  /** Every earlier element may stay ahead of every later one. */
  predicate Sorted(p: Policy, s: seq<Event>)
  {
    forall i, j :: 0 <= i < j < |s| ==> InOrder(p, s[i], s[j])
  }

  /** Inserts `x`, which precedes every element of `r` in the input, in
      front of the first element of `r` it may stay ahead of. */
  function Insert(p: Policy, x: Event, r: seq<Event>): (res: seq<Event>)
    ensures multiset(res) == multiset(r) + multiset{x}
    ensures |res| == |r| + 1
  {
    if |r| == 0 || InOrder(p, x, r[0]) then
      [x] + r
    else
      assert r == [r[0]] + r[1..];
      [r[0]] + Insert(p, x, r[1..])
  }

  /** Inserting into a sorted sequence keeps it sorted. */
  lemma {:induction false} InsertSorted(p: Policy, x: Event, r: seq<Event>)
    requires Sorted(p, r)
    ensures Sorted(p, Insert(p, x, r))
    decreases |r|
  {
    var res := Insert(p, x, r);
    if |r| == 0 {
    } else if InOrder(p, x, r[0]) {
      forall i, j | 0 <= i < j < |res|
        ensures InOrder(p, res[i], res[j])
      {
        if i == 0 && j > 1 {
          InOrderTransitive(p, x, r[0], r[j - 1]);
        }
      }
    } else {
      var rest := Insert(p, x, r[1..]);
      InsertSorted(p, x, r[1..]);
      InOrderTotal(p, x, r[0]);
      assert r == [r[0]] + r[1..];
      forall i, j | 0 <= i < j < |res|
        ensures InOrder(p, res[i], res[j])
      {
        if i == 0 {
          assert res[j] == rest[j - 1];
          assert res[j] in multiset(rest);
          if res[j] != x {
            SortedHeadFirst(p, r, res[j]);
          }
        } else {
          assert res[i] == rest[i - 1] && res[j] == rest[j - 1];
        }
      }
    }
  }

  /** The head of a sorted sequence is in order with everything after it. */
  lemma SortedHeadFirst(p: Policy, r: seq<Event>, y: Event)
    requires Sorted(p, r) && |r| > 0 && y in r[1..]
    ensures InOrder(p, r[0], y)
  {
    var k :| 0 <= k < |r[1..]| && r[1..][k] == y;
    assert r[k + 1] == y;
  }

  /** The stable sort under a policy: a permutation of `s` in the
      policy's order. */
  function SortBy(p: Policy, s: seq<Event>): (r: seq<Event>)
    ensures multiset(r) == multiset(s)
    ensures |r| == |s|
    ensures Sorted(p, r)
  {
    if |s| == 0 then []
    else
      assert s == [s[0]] + s[1..];
      var sorted := SortBy(p, s[1..]);
      InsertSorted(p, s[0], sorted);
      Insert(p, s[0], sorted)
  }

  /** `applySorting`: the policy the option names, or the input itself for
      an option it does not recognise. */
  function ApplySorting(events: seq<Event>, sortOption: string): (r: seq<Event>)
    ensures ParsePolicy(sortOption).None? ==> r == events
    ensures ParsePolicy(sortOption).Some? ==>
              multiset(r) == multiset(events) && Sorted(ParsePolicy(sortOption).value, r)
  {
    match ParsePolicy(sortOption)
    case Some(p) => SortBy(p, events)
    case None => events
  }

  // ---------------------------------------------------------------------
  // Stability, uniqueness and idempotence
  // ---------------------------------------------------------------------

  /** Tie with `k` under `p`. */
  function TiesWith(p: Policy, k: Event): Event -> bool
  {
    e => Key(p, e) == Key(p, k)
  }

  /** The elements tied with some event appear in the order they had in
      `s`: the sort is stable. */
  ghost predicate KeepsTies(p: Policy, r: seq<Event>, s: seq<Event>)
  {
    forall k :: Seqs.Filter(r, TiesWith(p, k)) == Seqs.Filter(s, TiesWith(p, k))
  }

  lemma {:induction false} InsertKeepsTies(p: Policy, x: Event, r: seq<Event>, k: Event)
    ensures Seqs.Filter(Insert(p, x, r), TiesWith(p, k)) == Seqs.Filter([x] + r, TiesWith(p, k))
    decreases |r|
  {
    var t := TiesWith(p, k);
    if |r| > 0 && !InOrder(p, x, r[0]) {
      var r0, tail := r[0], r[1..];
      var rest := Insert(p, x, tail);
      assert Insert(p, x, r) == [r0] + rest;
      assert r == [r0] + tail;
      InsertKeepsTies(p, x, tail, k);
      Seqs.FilterCons(r0, rest, t);
      Seqs.FilterCons(x, tail, t);
      Seqs.FilterCons(x, r, t);
      Seqs.FilterCons(r0, tail, t);
      NotBothTie(p, x, r0, k);
    }
  }

  /** Two events the comparator keeps apart do not both tie with `k`. */
  lemma NotBothTie(p: Policy, a: Event, b: Event, k: Event)
    requires !InOrder(p, a, b)
    ensures !(TiesWith(p, k)(a) && TiesWith(p, k)(b))
  {
    ComparatorProperties(p, a, b);
  }

  /** `SortBy` is stable. */
  lemma {:induction false} SortKeepsTies(p: Policy, s: seq<Event>)
    ensures KeepsTies(p, SortBy(p, s), s)
    decreases |s|
  {
    if |s| > 0 {
      SortKeepsTies(p, s[1..]);
      forall k
        ensures Seqs.Filter(SortBy(p, s), TiesWith(p, k)) == Seqs.Filter(s, TiesWith(p, k))
      {
        var t := TiesWith(p, k);
        var sorted := SortBy(p, s[1..]);
        InsertKeepsTies(p, s[0], sorted, k);
        Seqs.FilterConcat([s[0]], sorted, t);
        Seqs.FilterConcat([s[0]], s[1..], t);
        assert s == [s[0]] + s[1..];
      }
    }
  }

  /** The first elements of two sorted sequences with the same elements
      tie. */
  lemma SortedHeadsTie(p: Policy, r1: seq<Event>, r2: seq<Event>)
    requires Sorted(p, r1) && Sorted(p, r2)
    requires multiset(r1) == multiset(r2)
    requires |r1| > 0
    ensures |r2| > 0 && Key(p, r1[0]) == Key(p, r2[0])
  {
    assert r1[0] in multiset(r2);
    var a, b := r1[0], r2[0];
    assert b in multiset(r1);
    var i :| 0 <= i < |r2| && r2[i] == a;
    var j :| 0 <= j < |r1| && r1[j] == b;
    if i > 0 { assert InOrder(p, r2[0], r2[i]); } else { ComparatorProperties(p, a, a); }
    if j > 0 { assert InOrder(p, r1[0], r1[j]); } else { ComparatorProperties(p, b, b); }
    InOrderBothWays(p, a, b);
  }

  /** Equal filters of two sequences with the same head stay equal on the
      tails. */
  lemma FilterTails(a: Event, r1: seq<Event>, r2: seq<Event>, u: Event -> bool)
    requires |r1| > 0 && |r2| > 0 && r1[0] == a && r2[0] == a
    requires Seqs.Filter(r1, u) == Seqs.Filter(r2, u)
    ensures Seqs.Filter(r1[1..], u) == Seqs.Filter(r2[1..], u)
  {
    assert r1 == [a] + r1[1..] && r2 == [a] + r2[1..];
    Seqs.FilterConcat([a], r1[1..], u);
    Seqs.FilterConcat([a], r2[1..], u);
    var head := Seqs.Filter([a], u);
    assert Seqs.Filter(r1[1..], u) == (head + Seqs.Filter(r1[1..], u))[|head|..];
    assert Seqs.Filter(r2[1..], u) == (head + Seqs.Filter(r2[1..], u))[|head|..];
  }

  /** Sequences that agree on a filter and whose heads both pass it have
      the same head. */
  lemma TiedHeadsEqual(r1: seq<Event>, r2: seq<Event>, t: Event -> bool)
    requires |r1| > 0 && |r2| > 0 && t(r1[0]) && t(r2[0])
    requires Seqs.Filter(r1, t) == Seqs.Filter(r2, t)
    ensures r1[0] == r2[0]
  {
    Seqs.FilterUnfold(r1, t);
    Seqs.FilterUnfold(r2, t);
    assert Seqs.Filter(r1, t)[0] == r1[0];
    assert Seqs.Filter(r2, t)[0] == r2[0];
  }

  /** Two sorted sequences with the same elements, whose tied elements come
      in the same order, are equal. */
  lemma {:induction false} SortedTiesDetermine(p: Policy, r1: seq<Event>, r2: seq<Event>)
    requires Sorted(p, r1) && Sorted(p, r2)
    requires multiset(r1) == multiset(r2)
    requires forall k :: Seqs.Filter(r1, TiesWith(p, k)) == Seqs.Filter(r2, TiesWith(p, k))
    ensures r1 == r2
    decreases |r1|
  {
    if |r1| == 0 {
      assert |r2| == |multiset(r2)| == 0;
    } else {
      SortedHeadsTie(p, r1, r2);
      var a := r1[0];
      TiedHeadsEqual(r1, r2, TiesWith(p, a));
      forall k
        ensures Seqs.Filter(r1[1..], TiesWith(p, k)) == Seqs.Filter(r2[1..], TiesWith(p, k))
      {
        FilterTails(a, r1, r2, TiesWith(p, k));
      }
      Seqs.MultisetTails(r1, r2);
      SortedTiesDetermine(p, r1[1..], r2[1..]);
    }
  }

  /** Any stable sort with the policy's comparator returns what `SortBy`
      returns: a sorted permutation of `s` that keeps tied elements in their
      input order is `SortBy(p, s)`. */
  lemma StableSortIsUnique(p: Policy, s: seq<Event>, r: seq<Event>)
    requires multiset(r) == multiset(s)
    requires Sorted(p, r)
    requires KeepsTies(p, r, s)
    ensures r == SortBy(p, s)
  {
    SortKeepsTies(p, s);
    SortedTiesDetermine(p, r, SortBy(p, s));
  }

  /** Sorting a sequence that is already in order leaves it unchanged. */
  lemma {:induction false} SortedIsFixpoint(p: Policy, s: seq<Event>)
    requires Sorted(p, s)
    ensures SortBy(p, s) == s
    decreases |s|
  {
    if |s| > 0 {
      SortedIsFixpoint(p, s[1..]);
      assert s == [s[0]] + s[1..];
      if |s| > 1 {
        assert InOrder(p, s[0], s[1..][0]);
      }
    }
  }

  /** Sorting twice with the same option is sorting once. */
  lemma ApplySortingIdempotent(events: seq<Event>, sortOption: string)
    ensures ApplySorting(ApplySorting(events, sortOption), sortOption)
         == ApplySorting(events, sortOption)
  {
    match ParsePolicy(sortOption)
    case Some(p) =>
      SortedIsFixpoint(p, SortBy(p, events));
    case None =>
  }

  /** The default option sorts soonest first. */
  lemma SoonestSorting(events: seq<Event>)
    ensures ApplySorting(events, "soonest") == SortBy(Soonest, events)
  {
    var option := "soonest";
    assert ParsePolicy(option) == Some(Soonest);
  }

  /** The category policy groups by category first and orders by name
      within one category; the date policies order by date and the name
      policy by name. */
  lemma SortedByKeys(p: Policy, events: seq<Event>)
    ensures forall i, j :: 0 <= i < j < |SortBy(p, events)| ==>
              KeysInOrder(p, SortBy(p, events)[i], SortBy(p, events)[j])
  {
    var r := SortBy(p, events);
    forall i, j | 0 <= i < j < |r|
      ensures KeysInOrder(p, r[i], r[j])
    {
      InOrderMeaning(p, r[i], r[j]);
    }
  }

  /** Every subsequence of a sorted sequence is sorted. */
  lemma {:induction false} SortedSubsequence(p: Policy, r: seq<Event>, s: seq<Event>)
    requires Sorted(p, s) && Seqs.Subsequence(r, s)
    ensures Sorted(p, r)
    decreases |s|
  {
    if |r| > 0 {
      assert Sorted(p, s[1..]) by {
        assert forall i :: 0 <= i < |s[1..]| ==> s[1..][i] == s[i + 1];
      }
      if r[0] == s[0] && Seqs.Subsequence(r[1..], s[1..]) {
        SortedSubsequence(p, r[1..], s[1..]);
        Seqs.SubsequenceMembers(r[1..], s[1..]);
        forall i, j | 0 <= i < j < |r|
          ensures InOrder(p, r[i], r[j])
        {
          assert r[j] == r[1..][j - 1];
          if i == 0 {
            assert r[1..][j - 1] in r[1..];
            assert r[j] in s[1..];
            var k :| 0 <= k < |s[1..]| && s[1..][k] == r[j];
            assert s[k + 1] == r[j];
          } else {
            assert r[i] == r[1..][i - 1];
          }
        }
      } else {
        SortedSubsequence(p, r, s[1..]);
      }
    }
  }

  /** Sorting and filtering commute: the stable sort of a selection is the
      selection from the stable sort. This is what lets the tracker filter
      before it sorts, and split into upcoming and past after it sorts,
      without changing what is shown. */
  lemma SortCommutesWithFilter(p: Policy, s: seq<Event>, q: Event -> bool)
    ensures Seqs.Filter(SortBy(p, s), q) == SortBy(p, Seqs.Filter(s, q))
  {
    var sorted := SortBy(p, s);
    var r := Seqs.Filter(sorted, q);
    Seqs.FilterIsSelection(sorted, q);
    SortedSubsequence(p, r, sorted);
    Seqs.FilterSameCounts(sorted, s, q);
    SortKeepsTies(p, s);
    forall k: Event
      ensures Seqs.Filter(r, TiesWith(p, k)) == Seqs.Filter(Seqs.Filter(s, q), TiesWith(p, k))
    {
      var t := TiesWith(p, k);
      var both := Seqs.And(q, t);
      assert Seqs.Filter(sorted, t) == Seqs.Filter(s, t);
      Seqs.FilterFilter(sorted, q, t, both);
      Seqs.FilterFilter(sorted, t, q, both);
      Seqs.FilterFilter(s, t, q, both);
      Seqs.FilterFilter(s, q, t, both);
    }
    StableSortIsUnique(p, Seqs.Filter(s, q), r);
  }

  // ---------------------------------------------------------------------
  // The four policies, one function each
  // ---------------------------------------------------------------------

  /** `sortBySoonestDate`: a permutation in non-decreasing date order, with
      events of one date in their input order. */
  function SortBySoonestDate(events: seq<Event>): (r: seq<Event>)
    ensures multiset(r) == multiset(events)
    ensures forall i, j :: 0 <= i < j < |r| ==> Strings.LessEq(r[i].date, r[j].date)
    ensures KeepsTies(Soonest, r, events)
  {
    SortedByKeys(Soonest, events);
    SortKeepsTies(Soonest, events);
    SortBy(Soonest, events)
  }

  /** `sortByLatestDate`: a permutation in non-increasing date order, with
      events of one date in their input order. */
  function SortByLatestDate(events: seq<Event>): (r: seq<Event>)
    ensures multiset(r) == multiset(events)
    ensures forall i, j :: 0 <= i < j < |r| ==> Strings.LessEq(r[j].date, r[i].date)
    ensures KeepsTies(Latest, r, events)
  {
    SortedByKeys(Latest, events);
    SortKeepsTies(Latest, events);
    SortBy(Latest, events)
  }

  /** `sortByNameAZ`: a permutation in non-decreasing name order, with
      events of one name in their input order. */
  function SortByNameAZ(events: seq<Event>): (r: seq<Event>)
    ensures multiset(r) == multiset(events)
    ensures forall i, j :: 0 <= i < j < |r| ==> Strings.LessEq(r[i].name, r[j].name)
    ensures KeepsTies(ByName, r, events)
  {
    SortedByKeys(ByName, events);
    SortKeepsTies(ByName, events);
    SortBy(ByName, events)
  }

  /** `sortByCategory`: a permutation grouped by category in ascending
      order, names ascending within a category, events with the same
      category and name in their input order. */
  function SortByCategory(events: seq<Event>): (r: seq<Event>)
    ensures multiset(r) == multiset(events)
    ensures forall i, j :: 0 <= i < j < |r| ==>
              Strings.Less(r[i].category, r[j].category)
              || (r[i].category == r[j].category && Strings.LessEq(r[i].name, r[j].name))
    ensures KeepsTies(ByCategory, r, events)
  {
    SortedByKeys(ByCategory, events);
    SortKeepsTies(ByCategory, events);
    SortBy(ByCategory, events)
  }

  /** `applySorting` dispatches to the four policy functions. */
  lemma ApplySortingDispatch(events: seq<Event>)
    ensures ApplySorting(events, "soonest") == SortBySoonestDate(events)
    ensures ApplySorting(events, "latest") == SortByLatestDate(events)
    ensures ApplySorting(events, "name") == SortByNameAZ(events)
    ensures ApplySorting(events, "category") == SortByCategory(events)
  {
  }

  /** The category policy on three events: `B/Y`, `A/Z`, `A/A` (category
      and name) come out as `A/A`, `A/Z`, `B/Y`. */
  lemma SortByCategoryExample(e1: Event, e2: Event, e3: Event)
    requires e1.category == "B" && e1.name == "Y"
    requires e2.category == "A" && e2.name == "Z"
    requires e3.category == "A" && e3.name == "A"
    ensures SortByCategory([e1, e2, e3]) == [e3, e2, e1]
  {
    var p := ByCategory;
    ExampleOutOfOrder(e1, e2, e3);
    assert [e1, e2, e3][1..] == [e2, e3] && [e2, e3][1..] == [e3];
    assert SortBy(p, [e3]) == [e3];
    assert Insert(p, e2, [e3]) == [e3, e2];
    assert SortBy(p, [e2, e3]) == [e3, e2];
    assert Insert(p, e1, [e2]) == [e2, e1];
    assert Insert(p, e1, [e3, e2]) == [e3, e2, e1] by {
      assert [e3, e2][1..] == [e2];
    }
  }

  lemma ExampleOutOfOrder(e1: Event, e2: Event, e3: Event)
    requires e1.category == "B" && e1.name == "Y"
    requires e2.category == "A" && e2.name == "Z"
    requires e3.category == "A" && e3.name == "A"
    ensures !InOrder(ByCategory, e2, e3) && !InOrder(ByCategory, e1, e3) && !InOrder(ByCategory, e1, e2)
  {
    assert Strings.Less(e3.category, e1.category);
    assert Strings.Less(e3.name, e2.name);
  }
}

=== FILE: strings.dfy ===
/** The JavaScript string operations the tracker relies on: the relational
    `<` on strings, `toLowerCase`, `trim` and `includes`, together with the
    ordinal three-way comparison used for `compareDates` and as the model of
    `localeCompare`. Strings are sequences of characters and are compared
    character by character. */
module Strings {

  // ---------------------------------------------------------------------
  // Ordinal order
  // ---------------------------------------------------------------------

  /** JavaScript's `a < b` on two strings: lexicographic by character,
      a proper prefix sorting before any of its extensions. */
  predicate Less(a: string, b: string)
    decreases |a|
  {
    if |a| == 0 then |b| > 0
    else if |b| == 0 then false
    else if a[0] != b[0] then a[0] < b[0]
    else Less(a[1..], b[1..])
  }

  lemma {:induction false} LessIrreflexive(a: string)
    ensures !Less(a, a)
    decreases |a|
  {
    if |a| > 0 {
      LessIrreflexive(a[1..]);
    }
  }

  lemma {:induction false} LessTransitive(a: string, b: string, c: string)
    requires Less(a, b) && Less(b, c)
    ensures Less(a, c)
    decreases |a|
  {
    if |a| > 0 && |b| > 0 && |c| > 0 && a[0] == b[0] && b[0] == c[0] {
      LessTransitive(a[1..], b[1..], c[1..]);
    }
  }

  /** Exactly one of `a < b`, `a == b`, `b < a` holds. */
  lemma {:induction false} LessTrichotomy(a: string, b: string)
    ensures Less(a, b) || a == b || Less(b, a)
    ensures !(Less(a, b) && Less(b, a))
    ensures Less(a, b) ==> a != b
    decreases |a|
  {
    if |a| > 0 && |b| > 0 && a[0] == b[0] {
      LessTrichotomy(a[1..], b[1..]);
      if a[1..] == b[1..] {
        assert a == [a[0]] + a[1..] && b == [b[0]] + b[1..];
      }
    }
  }

  /** Ordinal three-way comparison: `-1`, `0` or `1` as `a` sorts before,
      equal to or after `b`. This is `compareDates` of the tracker, and the
      comparison that stands in for `localeCompare`. */
  function Compare(a: string, b: string): (r: int)
    ensures r == -1 || r == 0 || r == 1
    ensures r < 0 <==> Less(a, b)
    ensures r > 0 <==> Less(b, a)
    ensures r == 0 <==> a == b
  {
    LessTrichotomy(a, b);
    LessIrreflexive(a);
    if Less(a, b) then -1 else if Less(b, a) then 1 else 0
  }

  /** "At most" in the ordinal order: `a <= b` in JavaScript. */
  predicate LessEq(a: string, b: string)
  {
    !Less(b, a)
  }

  lemma LessEqTransitive(a: string, b: string, c: string)
    requires LessEq(a, b) && LessEq(b, c)
    ensures LessEq(a, c)
  {
    LessTrichotomy(a, b);
    LessTrichotomy(b, c);
    LessTrichotomy(a, c);
    if Less(c, a) {
      if a == b {
      } else if b == c {
      } else {
        LessTransitive(a, b, c);
        LessTransitive(c, a, b);
      }
    }
  }

  // ---------------------------------------------------------------------
  // Lower-casing
  // ---------------------------------------------------------------------

  /** `toLowerCase` on one character, restricted to the ASCII letters. */
  function LowerChar(c: char): char
  {
    if 'A' <= c <= 'Z' then (c as int - 'A' as int + 'a' as int) as char else c
  }

  /** `toLowerCase` on a string: every character lowered, length kept. */
  function Lower(s: string): (r: string)
    ensures |r| == |s|
    ensures forall i :: 0 <= i < |s| ==> r[i] == LowerChar(s[i])
  {
    if |s| == 0 then "" else [LowerChar(s[0])] + Lower(s[1..])
  }

  /** A string without upper-case ASCII letters is its own lower case. */
  lemma LowerOfLowercase(s: string)
    requires forall i :: 0 <= i < |s| ==> !('A' <= s[i] <= 'Z')
    ensures Lower(s) == s
  {
  }

  // ---------------------------------------------------------------------
  // Trimming
  // ---------------------------------------------------------------------

  /** The characters `trim` removes: ECMAScript white space and line
      terminators. */
  predicate IsSpace(c: char)
  {
    || c == '\t' || c == '\n' || c == '\U{B}' || c == '\U{C}' || c == '\r'
    || c == ' ' || c == '\U{A0}' || c == '\U{1680}'
    || ('\U{2000}' <= c <= '\U{200A}')
    || c == '\U{2028}' || c == '\U{2029}' || c == '\U{202F}' || c == '\U{205F}'
    || c == '\U{3000}' || c == '\U{FEFF}'
  }

  /** Lower-casing neither creates nor removes white space. */
  lemma LowerCharKeepsSpace(c: char)
    ensures IsSpace(LowerChar(c)) == IsSpace(c)
  {
  }

  /** Every character of `s` from `lo` up to `hi` is white space. */
  predicate AllSpace(s: string, lo: int, hi: int)
    requires 0 <= lo <= hi <= |s|
  {
    forall k :: lo <= k < hi ==> IsSpace(s[k])
  }

  /** The first position at or after `i` that does not hold white space,
      or `|s|` when there is none. */
  function SpanStart(s: string, i: nat): (k: nat)
    requires i <= |s|
    ensures i <= k <= |s| && AllSpace(s, i, k)
    ensures k == |s| || !IsSpace(s[k])
    decreases |s| - i
  {
    if i == |s| || !IsSpace(s[i]) then i else SpanStart(s, i + 1)
  }

  /** The end of the last character before `j`, and not before `lo`, that
      is not white space, or `lo` when there is none. */
  function SpanEnd(s: string, lo: nat, j: nat): (k: nat)
    requires lo <= j <= |s|
    ensures lo <= k <= j && AllSpace(s, k, j)
    ensures k == lo || !IsSpace(s[k - 1])
    decreases j
  {
    if j == lo || !IsSpace(s[j - 1]) then j else SpanEnd(s, lo, j - 1)
  }

  /** `r` is the piece of `s` starting at `i`, with nothing but white space
      before and after it. */
  predicate TrimmedAt(s: string, i: int, r: string)
  {
    && 0 <= i <= |s| - |r| && r == s[i..i + |r|]
    && AllSpace(s, 0, i) && AllSpace(s, i + |r|, |s|)
  }

  /** `trim`: the piece of `s` between its leading and its trailing white
      space. Neither end of it is white space, and it is empty exactly when
      every character of `s` is white space. */
  function Trim(s: string): (r: string)
    ensures TrimmedAt(s, SpanStart(s, 0), r)
    ensures r == [] || (!IsSpace(r[0]) && !IsSpace(r[|r| - 1]))
    ensures r == [] <==> AllSpace(s, 0, |s|)
  {
    var i := SpanStart(s, 0);
    var j := SpanEnd(s, i, |s|);
    assert AllSpace(s, 0, |s|) ==> i == |s|;
    s[i..j]
  }

  /** A string that starts and ends with a non-space character is its own
      trim. */
  lemma TrimUntrimmed(s: string)
    requires |s| > 0 && !IsSpace(s[0]) && !IsSpace(s[|s| - 1])
    ensures Trim(s) == s
  {
    assert SpanStart(s, 0) == 0;
    assert SpanEnd(s, 0, |s|) == |s|;
    assert s[0..|s|] == s;
  }

  /** Lower-casing does not move the start of the trimmed piece. */
  lemma {:induction false} SpanStartLower(s: string, i: nat)
    requires i <= |s|
    ensures SpanStart(Lower(s), i) == SpanStart(s, i)
    decreases |s| - i
  {
    if i < |s| {
      LowerCharKeepsSpace(s[i]);
      if IsSpace(s[i]) {
        SpanStartLower(s, i + 1);
      }
    }
  }

  /** Lower-casing does not move the end of the trimmed piece. */
  lemma {:induction false} SpanEndLower(s: string, lo: nat, j: nat)
    requires lo <= j <= |s|
    ensures SpanEnd(Lower(s), lo, j) == SpanEnd(s, lo, j)
    decreases j
  {
    if lo < j {
      LowerCharKeepsSpace(s[j - 1]);
      if IsSpace(s[j - 1]) {
        SpanEndLower(s, lo, j - 1);
      }
    }
  }

  /** Trimming and lower-casing commute, so `s.toLowerCase().trim()` is the
      lower-cased `s.trim()`. */
  lemma TrimLowerCommute(s: string)
    ensures Trim(Lower(s)) == Lower(Trim(s))
  {
    var i := SpanStart(s, 0);
    SpanStartLower(s, 0);
    SpanEndLower(s, i, |s|);
    var j := SpanEnd(s, i, |s|);
    assert Lower(s)[i..j] == Lower(s[i..j]);
  }

  // ---------------------------------------------------------------------
  // Substring search
  // ---------------------------------------------------------------------

  /** `q` occurs in `s` starting at index `i`. */
  predicate OccursAt(s: string, q: string, i: int)
  {
    0 <= i <= |s| - |q| && s[i..i + |q|] == q
  }

  /** `s.includes(q)`, by scanning `s` from the left: true exactly when `q`
      occurs somewhere in `s`. */
  function Contains(s: string, q: string): (r: bool)
    ensures r <==> exists i :: OccursAt(s, q, i)
    decreases |s|
  {
    if |q| <= |s| && s[..|q|] == q then
      assert OccursAt(s, q, 0);
      true
    else if |s| == 0 then
      false
    else
      var r := Contains(s[1..], q);
      assert forall i :: OccursAt(s[1..], q, i) ==> OccursAt(s, q, i + 1) by {
        forall i | OccursAt(s[1..], q, i)
          ensures OccursAt(s, q, i + 1)
        {
          assert s[1..][i..i + |q|] == s[i + 1..i + 1 + |q|];
        }
      }
      assert forall i :: OccursAt(s, q, i) && i > 0 ==> OccursAt(s[1..], q, i - 1) by {
        forall i | OccursAt(s, q, i) && i > 0
          ensures OccursAt(s[1..], q, i - 1)
        {
          assert s[1..][i - 1..i - 1 + |q|] == s[i..i + |q|];
        }
      }
      assert !OccursAt(s, q, 0);
      r
  }
}

=== FILE: wrappers.dfy ===
/** Optional values and error-or-value results, standing in for the
    `null` returns and thrown errors of the tracker's utilities. */
module Wrappers {

  /** A value that may be absent (`null` in the tracker). */
  datatype Option<+T> = None | Some(value: T)

  /** The outcome of an operation that either yields a value or fails
      with an error (a thrown `Error` in the tracker). */
  datatype Result<+T, +E> = Ok(value: T) | Err(error: E)
}
